=== FILE: README.md ===
# VoteCollector voting coordinator, in Dafny

This project models the core of the OpenSlides VoteCollector plugin: the
part that runs keypad votings for motions, elections and lists of speakers.

The server side has three parts:

- the views that start and stop a voting and fetch its result;
- the callbacks through which the device reports each keypad's vote or request;
- the anonymization of a poll's stored votes.

The browser side has four parts:

- the start/stop buttons and the status line of the voting panels;
- how a finished voting's result is copied into the poll form;
- the table of single votes;
- the keypad CSV import and the keypad list's sort and search.

The database is one immutable snapshot `Db` (module `Models`):

- the VoteCollector row;
- the motion polls, election polls and agenda items;
- the keypads;
- the two keypad-connection tables, kept as sequences in table order;
- the lists of speakers.

Every handler is a pure function or method from a snapshot and a request to a
new snapshot and a reply. The external VoteCollector device is not modelled as
code. Each call to it is a `DeviceReply` input, `Ok(value)` or `Err(message)`,
and the start and stop views also return the list of device calls they make.

Modules, one per file:

| module | file | what it holds |
|---|---|---|
| `Common` | common.dfy | `Option`, positive keys `Pk`, device replies |
| `Text` | text.dfy | Python `str`/`int()` and JavaScript `==` between a number and a string |
| `Models` | models.dfy | the records and the keyed lookups |
| `Connections` | connections.dfy | the keypad-connection tables: `get_or_create`, anonymize, delete, the election count |
| `Session` | session.dfy | `StartVoting`, `StopVoting`, `VotingResult`, `get_poll_object`, `clear_votes` |
| `Callbacks` | callbacks.dfy | `VoteCallback`, `CandidateCallback`, `SpeakerCallback` |
| `KeypadImport` | keypad_import.dfy | the CSV import watcher and `import` |
| `Client` | client.dfy | guards, status line, result mapping, the single-vote table, sort and search |

Behaviour worth knowing:

- The server never refuses a start because another voting is active. It stops
  whatever runs and starts the new voting. Only the browser's buttons keep two
  votings apart (`Session.StartIgnoresActiveVoting`, `Client.GuardsExclusive`).
- Stopping always clears `is_voting`, even when the device refuses to stop.
- The views test `if self.error:`. A device error with an empty message is therefore no error: a stop answers as if it succeeded, and a start or result view fails with HTTP 500.
- `votes_received` is the count the device posts with every vote. It is not a
  count of distinct keypads the server keeps.
- In a server-counted election, `valid + invalid` is the number of keypad rows
  of the poll. That number need not equal the number of votes cast the form
  shows, which is the device's count.

## Model

| member | source | states |
|---|---|---|
| Text.PyInt | openslides_votecollector/views.py:482-485 | `int(value)` on a string with no blank (ASCII tab to carriage return, space, or a non-ASCII Unicode space) at either end is exactly an optional sign followed by digits, with their value; a blank string raises |
| Text.SignedDigits | openslides_votecollector/views.py:482-485 | a value exactly for one or more digits with at most one leading sign, and it is the digits' value, negated after '-' |
| Text.PyIntIgnoresBlanks | openslides_votecollector/views.py:482-485 | `int()` ignores surrounding whitespace: blanks (ASCII tab to carriage return and space, and the non-ASCII Unicode spaces) added at either end never change the value or the failure |
| Text.SeparatorFailsInt | openslides_votecollector/views.py:482-485 | the ASCII separators U+001C to U+001F are not stripped: a value starting with one is not a key |
| Text.PyIntDecimal | openslides_votecollector/views.py:497 | the stored `str(key)` reads back with `int()` as the same key, for every integer |
| Text.JsLooseEqualsDecimal | openslides_votecollector/static/js/openslides_votecollector/site.js:471 | a keypad number is `==` to its own decimal text, for every integer |
| Models.FindKeypad | openslides_votecollector/views.py:416-420 | the keypad found carries the posted number and is registered; none is found exactly when no keypad has that number |
| Connections.FindConn | openslides_votecollector/views.py:450-451 | the first row of the poll and keypad, and none exactly when the table has no such row; this is the row `get_or_create` reads when there is at most one (see Left out for two) |
| Connections.UniqueFindsOnlyRow | openslides_votecollector/views.py:450-451 | on a table with at most one row per poll and keypad, the row found is the only match, so `get()` returns it without raising |
| Connections.FindConnFirst | openslides_votecollector/views.py:450 | a matching row with no match before it is the row the lookup finds |
| Connections.Record | openslides_votecollector/views.py:450-457 | a new row is added only when the keypad has none in the poll, at the end; afterwards its row holds the new serial number and value, and a vote that sets no candidate leaves the row's candidate as it was (none for a new row); every other row is unchanged and no row changes poll or keypad; at most one row per (poll, keypad) stays so |
| Connections.RecordTwice | openslides_votecollector/views.py:450-457 | last vote wins: two votes of one keypad in one poll leave the table as the second vote alone would |
| Connections.Anonymize | openslides_votecollector/views.py:113-121 | the keypad is cleared on exactly the rows of the given poll; poll, serial number, value and candidate are kept; rows of other polls are untouched |
| Connections.AnonymizeIdempotent | openslides_votecollector/views.py:132-140 | anonymizing a poll twice is the same as anonymizing it once |
| Connections.AnonymizeKeepsUnique | openslides_votecollector/views.py:132-140 | anonymizing keeps at most one row per (poll, keypad) |
| Connections.DeletePoll | openslides_votecollector/views.py:255 | deleting a poll's rows keeps every row of the other polls, as often as before and in the same order, and nothing else; uniqueness per (poll, keypad) is kept |
| Connections.OfPoll | openslides_votecollector/views.py:386 | `filter(poll_id=…)` holds every row of that poll, as often as in the table and in table order, and nothing else |
| Connections.Tally | openslides_votecollector/views.py:379-393 | every option's candidate gets an entry; it counts the poll's rows naming that candidate; valid counts rows naming one of the candidates; invalid counts all other rows of the poll |
| Connections.ValidPlusInvalid | openslides_votecollector/views.py:386-393 | every row of the poll is counted once, as valid or as invalid |
| Connections.SumVotesIsValid | openslides_votecollector/views.py:385-391 | for distinct candidates, the per-candidate counts add up to the valid count |
| Connections.TallyConservation | openslides_votecollector/views.py:379-393 | `valid + invalid` is the number of the poll's rows; the `vote_<id>` entries, one per key of the result, sum to `valid`, and so does the sum over the options when they name different candidates |
| Connections.NoCandidateIsInvalid | openslides_votecollector/views.py:388-393 | a row without a candidate (key 0) adds one invalid vote and no valid vote |
| Session.GetPollObject | openslides_votecollector/views.py:158-170 | no object without URL arguments; 'Unknown id.' exactly when the named table has no such row |
| Session.VotingMode | openslides_votecollector/views.py:227 | the recorded mode is the model's name when one is given, and 'Test' exactly when none is |
| Session.CallbackUrl | openslides_votecollector/views.py:219-222 | the device's URL is the callback base and resource, followed by the target id that `int()` reads back, with no id for target 0 |
| Session.ClearVotes | openslides_votecollector/views.py:243-248 | a poll with votes loses them and its three totals; a poll without votes is left as it is |
| Session.ClearVotesIdempotent | openslides_votecollector/views.py:243-248 | clearing twice is clearing once |
| Session.OnStart | openslides_votecollector/views.py:236-255 | a ping or a speakers' voting changes no table; a yes/no/abstain or election start clears only the started poll's totals and drops only its keypad rows, keeping every other poll, and every other row in order |
| Session.StartVoting | openslides_votecollector/views.py:206-235 | unknown id: nothing is written and the device is not called. Otherwise a running voting is stopped first, then the start is sent with the callback URL. A device error leaves the database unchanged and is reported; with an empty message `if self.error:` lets it through and the view fails with HTTP 500. Success records voting, mode, target, the device's voter count and 0 votes received, and changes no other table except what `on_start` resets |
| Session.StartClearsPoll | openslides_votecollector/views.py:251-255 | a successful yes/no/abstain or election start leaves no keypad row of the poll, keeps every other row of that table as often as before and in order, leaves the other table alone and clears the poll's votes |
| Session.StartIgnoresActiveVoting | openslides_votecollector/views.py:213-218 | whether a voting is active never changes a start's response or the row it writes |
| Session.StartIgnoresStopReply | openslides_votecollector/views.py:213-218 | the device's answer to the preliminary stop has no effect on the start |
| Session.StopVoting | openslides_votecollector/views.py:331-352 | `is_voting` becomes false even when the device stop fails; mode, target and counts are kept; the error is reported exactly when the device fails with a non-empty message (an empty one answers like success) |
| Session.StopIdempotent | openslides_votecollector/views.py:344-351 | a second stop changes nothing more |
| Session.VotingResult | openslides_votecollector/views.py:373-402 | 'Unknown id.' for a missing object; 'Another voting is active.' exactly when mode or target differ; the server count exactly for a current election poll that is neither yes/no/abstain nor yes/no, with the conservation law; otherwise the device's result, its error, or HTTP 500 for an error with an empty message |
| Callbacks.AfterVote | openslides_votecollector/views.py:459-462 | a stored vote copies the device's vote count and elapsed time (each 0 when absent) and keeps the voting's mode, target and voter count |
| Callbacks.VoteCallback | openslides_votecollector/views.py:429-464 | 'Vote rejected' exactly for an unknown keypad or a poll missing from the current mode's table; 'Vote invalid' exactly for a value outside Y, N, A; no rejection changes anything; an accepted vote writes only the keypad's row of the current mode's table, with its serial number and value and its candidate kept (none for a new row), keeping every other row and one row per keypad |
| Callbacks.VoteTwiceLastWins | openslides_votecollector/views.py:450-457 | a keypad's second accepted vote leaves the database as that vote alone would |
| Callbacks.ParseKey | openslides_votecollector/views.py:482-485 | a missing value raises, a value `int()` rejects is not a key, otherwise the key is `int(value)` |
| Callbacks.CandidateAsWritten | openslides_votecollector/views.py:489-493 | as written: the lookup raises exactly for keys above the number of options but not above the number of candidates; no candidate for key 0 or keys above the number of candidates; a key within both bounds selects the candidate of the key-th option |
| Callbacks.CandidateFor | openslides_votecollector/views.py:489-493 | key k names a candidate exactly when 1 ≤ k ≤ number of options, and it is the candidate of the k-th option |
| Callbacks.CandidateBoundMismatch | openslides_votecollector/views.py:491-493 | concrete polls on which the as-written bound crashes, or drops a valid key's candidate |
| Callbacks.CandidateLookupsAgree | openslides_votecollector/views.py:491-493 | for a key no larger than the number of candidates, when the candidates are no more than the options, both lookups agree |
| Callbacks.CandidateLookupsAgreeOnEveryKey | openslides_votecollector/views.py:491-493 | when the election has as many candidates as options, both lookups agree on every key |
| Callbacks.KeyValue | openslides_votecollector/views.py:497 | the stored value of a key 0..9 is one digit that reads back as the key |
| Callbacks.SaveKeyVote | openslides_votecollector/views.py:495-506 | the keypad's row holds the serial number, the key and the candidate; every other row is kept; the device's counters are copied; nothing else changes |
| Callbacks.CandidateCallbackAsWritten | openslides_votecollector/views.py:467-508 | as written: the request fails exactly for a missing value or a key past the options that the candidate count lets through; refused requests change nothing |
| Callbacks.CandidateCallback | openslides_votecollector/views.py:467-508 | 'Vote rejected' exactly for an unknown keypad or poll; 'Vote invalid' exactly for a non-integer or a key outside 0..9; a missing value raises; otherwise the keypad's one row stores `str(k)` and the k-th option's candidate (none for 0), and every other row is kept |
| Callbacks.AbstainCountsInvalid | openslides_votecollector/views.py:489-499 | for a registered keypad and a known election poll, key 0 is accepted and stores a row without a candidate, which the election count can never take as valid |
| Callbacks.AddSpeaker | openslides_votecollector/views.py:529-535 | afterwards the user waits on the list; the list only grows at its end, by at most one entry that is a next speaker (not begun, not ended), and not at all when the user already waits |
| Callbacks.AddSpeakerIdempotent | openslides_votecollector/views.py:529-535 | adding twice is adding once |
| Callbacks.RemoveNextSpeaker | openslides_votecollector/views.py:538-541 | exactly the user's entries that have neither begun nor ended go; every other entry stays, as often as before and in order |
| Callbacks.AddThenRemove | openslides_votecollector/views.py:529-541 | Y then N leaves the list as N alone |
| Callbacks.SpeakerCallbackAsWritten | openslides_votecollector/views.py:511-544 | as written: a missing agenda item makes the request fail, for any keypad with a user |
| Callbacks.SpeakerCallback | openslides_votecollector/views.py:511-544 | 'Keypad not registered', 'User unknown', 'No agenda item selected' and 'Invalid entry' exactly in their cases; only the list of speakers changes; Y adds the keypad's user once, as a next speaker at the end of the list and not at all when the user already waits, N removes exactly the user's waiting entries keeping the others in order, anything else changes nothing |
| Callbacks.SpeakerYesIdempotent | openslides_votecollector/views.py:529-536 | pressing Y twice gives the same reply and list as pressing it once |
| Callbacks.SpeakerHandlersAgree | openslides_votecollector/views.py:521-525 | the two handlers differ only when the agenda item is missing |
| KeypadImport.StripQuotes | openslides_votecollector/static/js/openslides_votecollector/site.js:410-439 | the field is unchanged or loses exactly one enclosing pair of quotes; unchanged when shorter than 2, not both starting and ending with `"`, or spanning lines |
| KeypadImport.StripQuotesRoundTrip | openslides_votecollector/static/js/openslides_votecollector/site.js:410-414 | quoting a one-line text and stripping gives the text back |
| KeypadImport.StripQuotesOnce | openslides_votecollector/static/js/openslides_votecollector/site.js:410-414 | a doubly quoted field keeps its inner pair |
| KeypadImport.StripField | openslides_votecollector/static/js/openslides_votecollector/site.js:412-414 | an absent column stays absent, a present one is quote-stripped |
| KeypadImport.MatchUser | openslides_votecollector/static/js/openslides_votecollector/site.js:440-448 | a participant id is found exactly when some participant's joined name equals the row's; it is the last such participant's |
| KeypadImport.MatchSeat | openslides_votecollector/static/js/openslides_votecollector/site.js:450-468 | a seat id is found exactly when some seat's number equals the row's label; it is the last such seat's |
| KeypadImport.SeatInUse | openslides_votecollector/static/js/openslides_votecollector/site.js:454-459 | true exactly when some keypad sits on the seat |
| KeypadImport.LabelTaken | openslides_votecollector/static/js/openslides_votecollector/site.js:449-463 | true exactly when a seat with the row's label already has a keypad |
| KeypadImport.KeypadIdTaken | openslides_votecollector/static/js/openslides_votecollector/site.js:470-476 | true exactly when the row has a keypad id `==` some existing keypad's number |
| KeypadImport.NameCheck | openslides_votecollector/static/js/openslides_votecollector/site.js:424-479 | 'Participant not found' exactly when no participant's name matches; otherwise 'name required' exactly when first and last name are both empty |
| KeypadImport.SeatCheck | openslides_votecollector/static/js/openslides_votecollector/site.js:449-467 | 'seat missing' exactly when no seat has the label; 'seat taken' exactly when a seat with the label has a keypad |
| KeypadImport.Check | openslides_votecollector/static/js/openslides_votecollector/site.js:411-481 | the row is quote-stripped; the participant and seat are the ones `MatchUser` and `MatchSeat` find; 'Participant not found' exactly without a name match; 'name required' exactly with a match but empty first and last name; 'seat missing' exactly when no seat has the label; 'seat taken' exactly when a labelled seat has a keypad; the keypad error exactly on a known keypad id; the import error exactly when any error is set; an error-free row names a participant and a seat |
| KeypadImport.Validate | openslides_votecollector/static/js/openslides_votecollector/site.js:408-483 | one preview line per CSV row, in order, each checked on its own |
| KeypadImport.ImportCommands | openslides_votecollector/static/js/openslides_votecollector/site.js:486-501 | one create `{keypad_id, user_id, seat_id}` per preview line without an import error, in the lines' order, and no other |
| KeypadImport.ImportCreatesCleanRows | openslides_votecollector/static/js/openslides_votecollector/site.js:486-501 | one create per error-free row, each naming a participant and a seat |
| KeypadImport.DuplicatesWithinFilePass | openslides_votecollector/static/js/openslides_votecollector/site.js:449-476 | for every row that passes the checks against the stored participants, seats and keypads, the same row given twice in one file is imported twice, with the same keypad id and seat: rows are never checked against each other |
| KeypadImport.ExampleRowPasses | openslides_votecollector/static/js/openslides_votecollector/site.js:449-476 | a witness that the precondition can be met: one participant, one seat and no keypads, where the row naming both is clean and creates keypad "7" for them |
| Client.CanStartVoting | openslides_votecollector/static/js/openslides_votecollector/site.js:721-723 | start is offered exactly when the row is loaded, the election (if any) is enabled (one open post, method 'auto' or 'votes'), and nothing runs or a speakers' voting runs that, for a speaker list, is not its own (same in `ElectionCtrl` 865-870 and `SpeakerListCtrl` 1037-1040) |
| Client.CanStopVoting | openslides_votecollector/static/js/openslides_votecollector/site.js:725-728 | stop is offered exactly while this panel's own voting runs (same in 872-875, 1042-1045) |
| Client.GuardsExclusive | openslides_votecollector/static/js/openslides_votecollector/site.js:721-728 | no panel offers start and stop at once |
| Client.StartEnablesStop | openslides_votecollector/static/js/openslides_votecollector/site.js:1037-1045 | after the server accepted a panel's start, the panel offers stop and not start |
| Client.StopKeepsResultAvailable | openslides_votecollector/static/js/openslides_votecollector/site.js:754-766 | after the stop the row still names the panel's poll, so the result request is answered; stop is no longer offered and start is offered again (for an election only while it is enabled) |
| Client.VotingStatus | openslides_votecollector/static/js/openslides_votecollector/site.js:802-823 | the system-test, speakers, other-kind and another-poll lines each appear exactly when such a voting runs; the received-votes line exactly when stop is offered; the line is blank exactly when nothing known runs (same for elections, 977-998) |
| Client.Status.Text | openslides_votecollector/static/js/openslides_votecollector/site.js:802-823 | the status line is blank exactly when nothing known runs; every other status shows a non-empty message |
| Client.MotionStopVoting | openslides_votecollector/static/js/openslides_votecollector/site.js:754-800 | errors leave the form and show the message; a failed result request leaves the form with no alert; otherwise yes/no/abstain are the device's three counts, valid and cast both `votes_received`, invalid 0 |
| Client.CopyVotes | openslides_votecollector/static/js/openslides_votecollector/site.js:944-948 | every option's candidate field takes the result's count (or `undefined`); other fields are kept |
| Client.ElectionStopVoting | openslides_votecollector/static/js/openslides_votecollector/site.js:915-975 | errors leave the form (a failed result request with no alert); a yes/no/abstain poll takes the three counts for its first candidate with valid = received and invalid 0; with no option nothing changes; another poll copies every option's count and valid/invalid from the server; cast is always the received count |
| Client.ElectionFormMatchesCount | openslides_votecollector/static/js/openslides_votecollector/site.js:943-952 | after a server-counted election each candidate's field is the number of keypads that chose it and valid + invalid is the number of the poll's rows |
| Client.VotesList | openslides_votecollector/static/js/openslides_votecollector/site.js:546-572 | one line per row of the poll, in table order, with serial number and value kept; no keypad exactly for an anonymized row; the participant is the keypad's owner, and the candidate the row's, whenever the store has them, and none otherwise |
| Client.AnonymizedVotesList | openslides_votecollector/static/js/openslides_votecollector/site.js:642-673 | after anonymization the table shows the same lines, serial numbers and values with neither keypad nor participant |
| Client.ToggleSort | openslides_votecollector/static/js/openslides_votecollector/site.js:200-205 | the clicked column becomes the sort column; a new column keeps the direction |
| Client.ToggleSortTwice | openslides_votecollector/static/js/openslides_votecollector/site.js:200-205 | two clicks on the sorted column restore the state |
| Client.GetFilterString | openslides_votecollector/static/js/openslides_votecollector/site.js:207-220 | the search text is the keypad number, the seat label and the participant's full name, joined by spaces |
| Client.SeatLabelOf | openslides_votecollector/static/js/openslides_votecollector/site.js:209-212 | the label of a seat of the store with the keypad's seat id, and empty when there is none |
| Client.UserNameOf | openslides_votecollector/static/js/openslides_votecollector/site.js:213-215 | the full name of a participant of the store with the keypad's user id, and empty when there is none |
| Client.FilterStringNamesKeypad | openslides_votecollector/static/js/openslides_votecollector/site.js:207-220 | the search text's first word is the keypad number and is `==` to it |

## Left out

- The device API (`start_voting`, `stop_voting`, `get_voting_result`, `get_device_status`) is not part of this model. Each call is an `Ok`/`Err` input.
- The `DeviceStatus` and `VotingStatus` views are left out. They only relay the device and format the elapsed time with the clock.
- Projector prompts are left out: the voting prompt and icon in `on_start`, and removing the prompt on stop. They are presentation only.
- `StartPing.on_start` resets the keypads' `in_range` and battery level. `VotingCallbackView` stores the battery level. `KeypadCallback` does the same. All of this is device telemetry and is left out.
- `get_callback_url` reads the host and port from the request. The model takes the resulting base URL as the parameter `callbackBase`.
- Permissions, `AjaxView` dispatch and the REST view sets are left out as framework glue.
- Concurrency is left out, both between callbacks and start/stop and between two callbacks. Every handler is one atomic step.
- Connections.FindConn: when two rows already exist for one poll and keypad, `get_or_create` raises `MultipleObjectsReturned` (HTTP 500, nothing saved). The model instead writes the first row. Two such rows can only come from concurrent callbacks, which the model leaves out. Sequentially, a table keeps at most one row per pair: the `UniquePairs` clauses of `Record`, `DeletePoll`, `VoteCallback` and `CandidateCallback` and the lemma `AnonymizeKeepsUnique` show that these writes keep it, and on such tables `UniqueFindsOnlyRow` shows that the model's row is the one `get()` returns.
- All texts are the untranslated English strings.
- On the browser side, these are left out:
  - the `$http` transport failures (`getErrorMessage`);
  - form clearing in `startVoting`;
  - `isProjected`, `projectSlide` and the `anonymizeVotes` POST, which only calls the server view;
  - the asynchronous `imported` flag of `Keypad.create`;
  - CSV parsing itself: separator, encoding and header.
- `signals.py` is left out. It only declares configuration variables and permissions.
- KeypadImport.Check: the model reads only the six columns it checks. A CSV column named `user_id`, `seat_id` or `importerror` would pre-set the watcher's own fields.
- KeypadImport.KeypadIdTaken: JavaScript's ToNumber also reads fractions, exponents, hexadecimal and `Infinity`. The model treats only an optional sign followed by decimal digits (or a blank string, as 0) as a number, so it may miss some matches.
- Text.PyInt: Python's `int()` also accepts `_` between digits and non-ASCII decimal digits. The model rejects both.
- Client.VotesList: every keypad a row names must be in the browser's store. This holds by the table's foreign key; without it the JavaScript stops with a TypeError.
- Callbacks.AfterVote: the device's `votes` and `elapsed` POST fields are taken as integers. The model does not convert strings into integer columns.
- The as-written handlers use `ServerError`, and the start and result views `StartServerError` and `ResultServerError`, for an uncaught exception (HTTP 500). The model does not describe the response body.

## Findings

| source | as written | input that shows it | evidently intended | confidence | as-written member | corrected member |
|---|---|---|---|---|---|---|
| openslides_votecollector/views.py:491-493 | key k selects option k−1 whenever k ≤ the number of the election's candidates (`related_users`), but the options list it indexes can be shorter or longer | 1) a poll with one option in an election with two candidates, key 2: `IndexError`, the vote is lost with a server error. 2) A poll with two options in an election with one candidate, key 2: stored with no candidate, counted invalid | bound the key by the number of the poll's options | not executed; medium (needs candidates added or removed after the poll was created) | Callbacks.CandidateAsWritten, Callbacks.CandidateCallbackAsWritten, Callbacks.CandidateBoundMismatch | Callbacks.CandidateFor, Callbacks.CandidateCallback |
| openslides_votecollector/views.py:522-525 | the `Item.objects.get` lookup is guarded by `except MotionPoll.DoesNotExist` | a registered keypad with a user posts to an item id that does not exist: `Item.DoesNotExist` escapes and the request fails | answer 'No agenda item selected' | not executed; high | Callbacks.SpeakerCallbackAsWritten | Callbacks.SpeakerCallback |

=== FILE: callbacks.dfy ===
/**
 * The callbacks the device posts to while a voting runs: a yes/no/abstain
 * vote, an election key vote and a list-of-speakers request. Each first looks
 * up the keypad by the number the device reports.
 */
module Callbacks {
  import opened Common
  import opened Text
  import opened Models
  import opened Connections

  /** The plain-text answers of the callbacks; `ServerError` stands for an uncaught exception. */
  datatype Reply =
    | VoteRejected | VoteInvalid | VoteSubmitted
    | KeypadNotRegistered | UserUnknown | NoAgendaItem
    | AddedToList | RemovedFromList | InvalidEntry
    | ServerError
  {
    function Text(): string {
      match this
      case VoteRejected => "Vote rejected"
      case VoteInvalid => "Vote invalid"
      case VoteSubmitted => "Vote submitted"
      case KeypadNotRegistered => "Keypad not registered"
      case UserUnknown => "User unknown"
      case NoAgendaItem => "No agenda item selected"
      case AddedToList => "Added to        list of speakers"
      case RemovedFromList => "Removed from    list of speakers"
      case InvalidEntry => "Invalid entry"
      case ServerError => ""
    }
  }

  datatype CallbackOutcome = CallbackOutcome(db: Db, reply: Reply)

  /** The POST fields of a vote: value, serial number, the device's vote count and elapsed time. */
  datatype VotePost = VotePost(value: Option<string>, sn: Option<string>, votes: Option<int>, elapsed: Option<int>)

  predicate IsYesNoAbstain(v: Option<string>) {
    v == Some("Y") || v == Some("N") || v == Some("A")
  }

  /** The VoteCollector row after a stored vote: the device's count and elapsed time (0 when absent). */
  function AfterVote(vc: VoteCollector, post: VotePost): (r: VoteCollector)
    ensures r.isVoting == vc.isVoting && r.votingMode == vc.votingMode && r.votingTarget == vc.votingTarget
    ensures r.votersCount == vc.votersCount
    ensures r.votesReceived == (if post.votes.Some? then post.votes.value else 0)
    ensures r.votingDuration == (if post.elapsed.Some? then post.elapsed.value else 0)
  {
    vc.(votesReceived := post.votes.GetOr(0), votingDuration := post.elapsed.GetOr(0))
  }

  /** The poll table a yes/no/abstain vote goes to: motion polls in a motion voting, election polls otherwise. */
  predicate PollKnown(db: Db, pollId: int) {
    if db.vc.votingMode == "MotionPoll" then pollId in db.motionPolls else pollId in db.assignmentPolls
  }

  /** The row of (poll, keypad) in a table holds this serial number and value. */
  predicate Holds(cs: seq<Conn>, poll: int, kp: Pk, serial: Option<string>, value: string) {
    var i := FindConn(cs, poll, kp);
    i.Some? && cs[i.value].serial == serial && cs[i.value].value == value
  }

  /**
   * `VoteCallback.post`: an unknown keypad is rejected, a value other than
   * Y, N or A is invalid, a poll missing from the table of the current voting
   * mode is rejected; otherwise the keypad's row for the poll is created or
   * overwritten and the device's counters are copied into the VoteCollector row.
   */
  function VoteCallback(db: Db, pollId: int, keypadId: int, post: VotePost): (out: CallbackOutcome)
    ensures out.reply in {VoteRejected, VoteInvalid, VoteSubmitted}
    ensures out.reply != VoteSubmitted ==> out.db == db
    ensures out.reply == VoteRejected <==>
      FindKeypad(db.keypads, keypadId).None? || (IsYesNoAbstain(post.value) && !PollKnown(db, pollId))
    ensures out.reply == VoteInvalid <==> FindKeypad(db.keypads, keypadId).Some? && !IsYesNoAbstain(post.value)
    ensures out.reply == VoteSubmitted ==>
      var kp := FindKeypad(db.keypads, keypadId).value.pk;
      && out.db == db.(vc := out.db.vc, motionConns := out.db.motionConns, assignmentConns := out.db.assignmentConns)
      && out.db.vc == AfterVote(db.vc, post)
      && (if db.vc.votingMode == "MotionPoll" then
            && Holds(out.db.motionConns, pollId, kp, post.sn, post.value.value)
            && WritesOnly(out.db.motionConns, db.motionConns, pollId, kp)
            && KeepsCandidate(out.db.motionConns, db.motionConns, pollId, kp)
            && out.db.assignmentConns == db.assignmentConns
          else
            && Holds(out.db.assignmentConns, pollId, kp, post.sn, post.value.value)
            && WritesOnly(out.db.assignmentConns, db.assignmentConns, pollId, kp)
            && KeepsCandidate(out.db.assignmentConns, db.assignmentConns, pollId, kp)
            && out.db.motionConns == db.motionConns)
    ensures UniquePairs(db.motionConns) ==> UniquePairs(out.db.motionConns)
    ensures UniquePairs(db.assignmentConns) ==> UniquePairs(out.db.assignmentConns)
  {
    match FindKeypad(db.keypads, keypadId)
    case None => CallbackOutcome(db, VoteRejected)
    case Some(keypad) =>
      if !IsYesNoAbstain(post.value) then CallbackOutcome(db, VoteInvalid)
      else if db.vc.votingMode == "MotionPoll" then
        if pollId !in db.motionPolls then CallbackOutcome(db, VoteRejected)
        else
          var conns := Record(db.motionConns, pollId, keypad.pk, post.sn, post.value.value, KeepCandidate);
          CallbackOutcome(db.(motionConns := conns, vc := AfterVote(db.vc, post)), VoteSubmitted)
      else
        if pollId !in db.assignmentPolls then CallbackOutcome(db, VoteRejected)
        else
          var conns := Record(db.assignmentConns, pollId, keypad.pk, post.sn, post.value.value, KeepCandidate);
          CallbackOutcome(db.(assignmentConns := conns, vc := AfterVote(db.vc, post)), VoteSubmitted)
  }

  /**
   * A keypad voting twice in the same poll leaves the tables as after its
   * second vote alone: one row, holding the later value and serial number.
   */
  lemma VoteTwiceLastWins(db: Db, pollId: int, keypadId: int, p1: VotePost, p2: VotePost)
    requires VoteCallback(db, pollId, keypadId, p1).reply == VoteSubmitted
    requires IsYesNoAbstain(p2.value)
    ensures var mid := VoteCallback(db, pollId, keypadId, p1).db;
      VoteCallback(mid, pollId, keypadId, p2) == VoteCallback(db, pollId, keypadId, p2)
  {
    var kp := FindKeypad(db.keypads, keypadId).value.pk;
    RecordTwice(db.motionConns, pollId, kp, p1.sn, p1.value.value, KeepCandidate, p2.sn, p2.value.value, KeepCandidate);
    RecordTwice(db.assignmentConns, pollId, kp, p1.sn, p1.value.value, KeepCandidate, p2.sn, p2.value.value, KeepCandidate);
  }

  /** The key of an election vote: `int(value)`, a `ValueError`, or no value at all (a `TypeError`). */
  datatype KeyParse = Key(k: int) | NotAKey | Missing

  function ParseKey(value: Option<string>): (r: KeyParse)
    ensures r.Missing? <==> value.None?
    ensures r.Key? <==> value.Some? && PyInt(value.value).Some?
    ensures r.Key? ==> PyInt(value.value) == Some(r.k)
  {
    match value
    case None => Missing
    case Some(s) => match PyInt(s) { case Some(k) => Key(k) case None => NotAKey }
  }

  /**
   * The candidate key `k` selects, as written: keys up to the number of
   * candidates of the election index the poll's options ordered by id, so a
   * key past the last option raises `IndexError` (None here).
   */
  function CandidateAsWritten(poll: AssignmentPoll, k: int): (r: Option<Option<Pk>>)
    ensures r.None? <==> |poll.options| < k <= poll.relatedUsers
    ensures r == Some(None) <==> k <= 0 || poll.relatedUsers < k
    ensures 0 < k <= poll.relatedUsers && k <= |poll.options| ==> r == Some(Some(poll.options[k - 1].candidate))
  {
    if 0 < k <= poll.relatedUsers then
      if k - 1 < |poll.options| then Some(Some(poll.options[k - 1].candidate)) else None
    else
      Some(None)
  }

  /** The candidate key `k` selects, bounded by the options it indexes: key k is the k-th option. */
  function CandidateFor(poll: AssignmentPoll, k: int): (r: Option<Pk>)
    ensures r.Some? <==> 1 <= k <= |poll.options|
    ensures r.Some? ==> r.value in CandidatesOf(poll.options)
    ensures r.Some? ==> r.value == poll.options[k - 1].candidate
  {
    if 0 < k <= |poll.options| then Some(poll.options[k - 1].candidate) else None
  }

  /**
   * The two lookups disagree: with more candidates than options, key 2 of a
   * one-option poll crashes the handler as written; with more options than
   * candidates, key 2 of a two-option poll stores no candidate as written
   * (and so counts as invalid) although it names the second option.
   */
  lemma CandidateBoundMismatch()
    ensures var one := AssignmentPoll(PollTotals(false, None, None, None), [AssignmentOption(1, 10)], false, false, 2);
      CandidateAsWritten(one, 2).None? && CandidateFor(one, 2).None?
    ensures var two := AssignmentPoll(PollTotals(false, None, None, None),
                                      [AssignmentOption(1, 10), AssignmentOption(2, 20)], false, false, 1);
      CandidateAsWritten(two, 2) == Some(None) && CandidateFor(two, 2) == Some(20)
  {
  }

  /** For keys up to the candidate count, when the candidates are no more than the options, both lookups agree. */
  lemma CandidateLookupsAgree(poll: AssignmentPoll, k: int)
    requires k <= poll.relatedUsers && poll.relatedUsers <= |poll.options|
    ensures CandidateAsWritten(poll, k) == Some(CandidateFor(poll, k))
  {
  }

  /** When the election has exactly one option per candidate, both lookups agree on every key. */
  lemma CandidateLookupsAgreeOnEveryKey(poll: AssignmentPoll, k: int)
    requires poll.relatedUsers == |poll.options|
    ensures CandidateAsWritten(poll, k) == Some(CandidateFor(poll, k))
  {
  }

  /** The stored value of an election key vote: `str(key)`, one digit. */
  function KeyValue(k: int): (s: string)
    requires 0 <= k <= 9
    ensures |s| == 1 && IsDigit(s[0]) && DigitValue(s[0]) == k
    ensures PyInt(s) == Some(k)
  {
    PyIntDecimal(k);
    DecimalString(k)
  }

  /** Stores an accepted election key vote and copies the device's counters. */
  function SaveKeyVote(db: Db, pollId: int, kp: Pk, k: int, candidate: Option<Pk>, post: VotePost): (r: Db)
    requires 0 <= k <= 9
    ensures r == db.(vc := AfterVote(db.vc, post), assignmentConns := r.assignmentConns)
    ensures var i := FindConn(r.assignmentConns, pollId, kp);
      && i.Some?
      && r.assignmentConns[i.value].serial == post.sn
      && PyInt(r.assignmentConns[i.value].value) == Some(k)
      && r.assignmentConns[i.value].candidate == candidate
    ensures WritesOnly(r.assignmentConns, db.assignmentConns, pollId, kp)
    ensures UniquePairs(db.assignmentConns) ==> UniquePairs(r.assignmentConns)
  {
    db.(assignmentConns := Record(db.assignmentConns, pollId, kp, post.sn, KeyValue(k), SetCandidate(candidate)),
        vc := AfterVote(db.vc, post))
  }

  /** `CandidateCallback.post` with the candidate lookup the handler uses: as written, or bounded by the options. */
  function HandleKeyVote(db: Db, pollId: int, keypadId: int, post: VotePost, asWritten: bool): CallbackOutcome {
    match FindKeypad(db.keypads, keypadId)
    case None => CallbackOutcome(db, VoteRejected)
    case Some(keypad) =>
      if pollId !in db.assignmentPolls then CallbackOutcome(db, VoteRejected)
      else
        match ParseKey(post.value)
        case Missing => CallbackOutcome(db, ServerError)
        case NotAKey => CallbackOutcome(db, VoteInvalid)
        case Key(k) =>
          if k < 0 || k > 9 then CallbackOutcome(db, VoteInvalid)
          else
            var poll := db.assignmentPolls[pollId];
            var chosen := if asWritten then CandidateAsWritten(poll, k) else Some(CandidateFor(poll, k));
            match chosen
            case None => CallbackOutcome(db, ServerError)
            case Some(candidate) => CallbackOutcome(SaveKeyVote(db, pollId, keypad.pk, k, candidate, post), VoteSubmitted)
  }

  /** Both lookups refuse the same keypads, polls and keys. */
  predicate KnownKeypadAndPoll(db: Db, pollId: int, keypadId: int) {
    FindKeypad(db.keypads, keypadId).Some? && pollId in db.assignmentPolls
  }

  predicate KeyOutOfRange(post: VotePost) {
    ParseKey(post.value).NotAKey? || (ParseKey(post.value).Key? && !(0 <= ParseKey(post.value).k <= 9))
  }

  /**
   * `CandidateCallback.post` as written: like the corrected handler, except
   * that a key above the number of options but not above the number of the
   * election's candidates ends in an uncaught `IndexError`.
   */
  function CandidateCallbackAsWritten(db: Db, pollId: int, keypadId: int, post: VotePost): (out: CallbackOutcome)
    ensures out.reply != VoteSubmitted ==> out.db == db
    ensures out.reply == ServerError <==>
      KnownKeypadAndPoll(db, pollId, keypadId)
      && (post.value.None?
          || (ParseKey(post.value).Key? && 0 <= ParseKey(post.value).k <= 9
              && |db.assignmentPolls[pollId].options| < ParseKey(post.value).k <= db.assignmentPolls[pollId].relatedUsers))
  {
    HandleKeyVote(db, pollId, keypadId, post, true)
  }

  /**
   * `CandidateCallback.post`, with key k in 1..n naming the k-th of the n
   * options ordered by id. An unknown keypad or poll is rejected; a value that
   * is not an integer, or an integer outside 0..9, is invalid; a missing value
   * raises. Otherwise the keypad's row stores `str(k)` and the selected
   * candidate, none for key 0 (abstention) or a key past the options.
   */
  function CandidateCallback(db: Db, pollId: int, keypadId: int, post: VotePost): (out: CallbackOutcome)
    ensures out.reply in {VoteRejected, VoteInvalid, VoteSubmitted, ServerError}
    ensures out.reply != VoteSubmitted ==> out.db == db
    ensures out.reply == VoteRejected <==> !KnownKeypadAndPoll(db, pollId, keypadId)
    ensures out.reply == ServerError <==> KnownKeypadAndPoll(db, pollId, keypadId) && post.value.None?
    ensures out.reply == VoteInvalid <==> KnownKeypadAndPoll(db, pollId, keypadId) && KeyOutOfRange(post)
    ensures out.reply == VoteSubmitted ==>
      var kp := FindKeypad(db.keypads, keypadId).value.pk;
      var k := ParseKey(post.value).k;
      var i := FindConn(out.db.assignmentConns, pollId, kp);
      && 0 <= k <= 9
      && out.db == db.(vc := AfterVote(db.vc, post), assignmentConns := out.db.assignmentConns)
      && i.Some?
      && out.db.assignmentConns[i.value].serial == post.sn
      && PyInt(out.db.assignmentConns[i.value].value) == Some(k)
      && out.db.assignmentConns[i.value].candidate
         == (if 1 <= k <= |db.assignmentPolls[pollId].options| then Some(db.assignmentPolls[pollId].options[k - 1].candidate) else None)
      && WritesOnly(out.db.assignmentConns, db.assignmentConns, pollId, kp)
    ensures UniquePairs(db.assignmentConns) ==> UniquePairs(out.db.assignmentConns)
  {
    HandleKeyVote(db, pollId, keypadId, post, false)
  }

  /** An abstention (key 0) leaves the keypad's row without a candidate, so the election count calls it invalid. */
  lemma AbstainCountsInvalid(db: Db, pollId: int, keypadId: int, post: VotePost)
    requires KnownKeypadAndPoll(db, pollId, keypadId) && post.value == Some("0")
    ensures CandidateCallback(db, pollId, keypadId, post).reply == VoteSubmitted
    ensures var cs := CandidateCallback(db, pollId, keypadId, post).db.assignmentConns;
      var kp := FindKeypad(db.keypads, keypadId).value.pk;
      FindConn(cs, pollId, kp).Some? && forall cands :: !IsValidVote(cs[FindConn(cs, pollId, kp).value], pollId, cands)
  {
    PyIntDecimal(0);
    assert DecimalString(0) == "0";
  }

  /** A list-of-speakers entry that has not begun; `Speaker.objects.add` refuses a second one. */
  predicate IsWaiting(s: Speaker, item: int, user: Pk) {
    s.item == item && s.user == user && !s.begun
  }

  /** An entry on the "next speakers" list: neither begun nor ended. */
  predicate IsNextSpeaker(s: Speaker, item: int, user: Pk) {
    IsWaiting(s, item, user) && !s.ended
  }

  function HasWaiting(ss: seq<Speaker>, item: int, user: Pk): (b: bool)
    ensures b <==> exists i :: 0 <= i < |ss| && IsWaiting(ss[i], item, user)
  {
    if |ss| == 0 then false
    else IsWaiting(ss[|ss| - 1], item, user) || HasWaiting(ss[..|ss| - 1], item, user)
  }

  /** `Speaker.objects.add(user, item)`, its "already on the list" error swallowed. */
  function AddSpeaker(ss: seq<Speaker>, item: int, user: Pk): (r: seq<Speaker>)
    ensures exists i :: 0 <= i < |r| && IsWaiting(r[i], item, user)
    ensures |ss| <= |r| <= |ss| + 1 && r[..|ss|] == ss
    ensures (exists i :: 0 <= i < |ss| && IsWaiting(ss[i], item, user)) ==> r == ss
    ensures |r| > |ss| ==> r[|ss|] == Speaker(item, user, false, false)
  {
    if HasWaiting(ss, item, user) then ss
    else
      var r := ss + [Speaker(item, user, false, false)];
      assert IsWaiting(r[|ss|], item, user);
      r
  }

  lemma AddSpeakerIdempotent(ss: seq<Speaker>, item: int, user: Pk)
    ensures AddSpeaker(AddSpeaker(ss, item, user), item, user) == AddSpeaker(ss, item, user)
  {
  }

  /** The filter condition "the entry is not one of the user's next-speaker entries". */
  function StaysListed(item: int, user: Pk): Speaker -> bool {
    (s: Speaker) => !IsNextSpeaker(s, item, user)
  }

  /**
   * `Speaker.objects.filter(user, item, begin_time=None, end_time=None).delete()`:
   * every other entry stays, as often as before and in the same order.
   */
  function RemoveNextSpeaker(ss: seq<Speaker>, item: int, user: Pk): (r: seq<Speaker>)
    ensures KeepsInOrder(r, ss, StaysListed(item, user))
    ensures forall s :: multiset(r)[s] == if IsNextSpeaker(s, item, user) then 0 else multiset(ss)[s]
    ensures forall s :: s in r <==> s in ss && !IsNextSpeaker(s, item, user)
    ensures |r| <= |ss|
  {
    Filter(ss, StaysListed(item, user))
  }

  /** Adding a keypad's user and removing it again leaves the same list as removing it alone. */
  lemma AddThenRemove(ss: seq<Speaker>, item: int, user: Pk)
    ensures RemoveNextSpeaker(AddSpeaker(ss, item, user), item, user) == RemoveNextSpeaker(ss, item, user)
  {
  }

  /** `SpeakerCallback.post` with the item lookup's failure caught (`corrected`) or escaping as written. */
  function HandleSpeakerRequest(db: Db, itemId: int, keypadId: int, value: Option<string>, corrected: bool): CallbackOutcome {
    match FindKeypad(db.keypads, keypadId)
    case None => CallbackOutcome(db, KeypadNotRegistered)
    case Some(keypad) =>
      match keypad.user
      case None => CallbackOutcome(db, UserUnknown)
      case Some(user) =>
        if itemId !in db.items then CallbackOutcome(db, if corrected then NoAgendaItem else ServerError)
        else if value == Some("Y") then
          CallbackOutcome(db.(speakers := AddSpeaker(db.speakers, itemId, user)), AddedToList)
        else if value == Some("N") then
          CallbackOutcome(db.(speakers := RemoveNextSpeaker(db.speakers, itemId, user)), RemovedFromList)
        else
          CallbackOutcome(db, InvalidEntry)
  }

  /** The keypad is registered and belongs to a user. */
  predicate PersonalKeypad(db: Db, keypadId: int) {
    FindKeypad(db.keypads, keypadId).Some? && FindKeypad(db.keypads, keypadId).value.user.Some?
  }

  /**
   * `SpeakerCallback.post` as written: the missing agenda item raises
   * `Item.DoesNotExist`, which the handler does not catch (it catches
   * `MotionPoll.DoesNotExist`), so the request fails instead of answering.
   */
  function SpeakerCallbackAsWritten(db: Db, itemId: int, keypadId: int, value: Option<string>): (out: CallbackOutcome)
    ensures out.reply == ServerError <==> PersonalKeypad(db, keypadId) && itemId !in db.items
    ensures out.reply != NoAgendaItem
  {
    HandleSpeakerRequest(db, itemId, keypadId, value, false)
  }

  /**
   * `SpeakerCallback.post`: only a registered keypad with a user may act; for
   * an existing agenda item, Y puts the user on the list once, N takes the
   * user off the "next speakers" list, anything else changes nothing.
   */
  function SpeakerCallback(db: Db, itemId: int, keypadId: int, value: Option<string>): (out: CallbackOutcome)
    ensures out.reply == KeypadNotRegistered <==> FindKeypad(db.keypads, keypadId).None?
    ensures out.reply == UserUnknown <==> FindKeypad(db.keypads, keypadId).Some? && !PersonalKeypad(db, keypadId)
    ensures out.reply == NoAgendaItem <==> PersonalKeypad(db, keypadId) && itemId !in db.items
    ensures out.reply != ServerError
    ensures out.db == db.(speakers := out.db.speakers)
    ensures !(out.reply in {AddedToList, RemovedFromList}) ==> out.db == db
    ensures out.reply == AddedToList <==> PersonalKeypad(db, keypadId) && itemId in db.items && value == Some("Y")
    ensures out.reply == RemovedFromList <==> PersonalKeypad(db, keypadId) && itemId in db.items && value == Some("N")
    ensures out.reply == AddedToList ==>
      var user := FindKeypad(db.keypads, keypadId).value.user.value;
      (exists i :: 0 <= i < |out.db.speakers| && IsWaiting(out.db.speakers[i], itemId, user))
      && |db.speakers| <= |out.db.speakers| <= |db.speakers| + 1 && out.db.speakers[..|db.speakers|] == db.speakers
      && (|out.db.speakers| > |db.speakers| ==> out.db.speakers[|db.speakers|] == Speaker(itemId, user, false, false))
      && ((exists i :: 0 <= i < |db.speakers| && IsWaiting(db.speakers[i], itemId, user)) ==> out.db.speakers == db.speakers)
    ensures out.reply == InvalidEntry <==>
      PersonalKeypad(db, keypadId) && itemId in db.items && value != Some("Y") && value != Some("N")
    ensures out.reply == RemovedFromList ==>
      var user := FindKeypad(db.keypads, keypadId).value.user.value;
      && KeepsInOrder(out.db.speakers, db.speakers, StaysListed(itemId, user))
      && forall s :: multiset(out.db.speakers)[s] == if IsNextSpeaker(s, itemId, user) then 0 else multiset(db.speakers)[s]
  {
    HandleSpeakerRequest(db, itemId, keypadId, value, true)
  }

  /** Pressing Y twice puts the user on the list once. */
  lemma SpeakerYesIdempotent(db: Db, itemId: int, keypadId: int)
    ensures var once := SpeakerCallback(db, itemId, keypadId, Some("Y"));
      SpeakerCallback(once.db, itemId, keypadId, Some("Y")) == once
  {
    var once := SpeakerCallback(db, itemId, keypadId, Some("Y"));
    if once.reply == AddedToList {
      var user := FindKeypad(db.keypads, keypadId).value.user.value;
      AddSpeakerIdempotent(db.speakers, itemId, user);
    }
  }

  /** The two handlers differ only where the agenda item is missing. */
  lemma SpeakerHandlersAgree(db: Db, itemId: int, keypadId: int, value: Option<string>)
    requires itemId in db.items
    ensures SpeakerCallbackAsWritten(db, itemId, keypadId, value) == SpeakerCallback(db, itemId, keypadId, value)
  {
  }
}

=== FILE: client.dfy ===
/**
 * The browser side of a voting: which start and stop buttons a panel shows,
 * the status line, how a finished voting's result is copied into the poll
 * form, the list of single votes and the keypad list's sorting and search.
 */
module Client {
  import opened Common
  import opened Text
  import opened Models
  import opened Connections
  import opened Session

  /**
   * A voting panel: the motion poll form (`VotingCtrl`), the election poll
   * form (`ElectionCtrl`, with the election's open posts and the configured
   * election method) or an agenda item's list of speakers (`SpeakerListCtrl`).
   */
  datatype Panel =
    | MotionPanel(pollId: int)
    | ElectionPanel(pollId: int, openPosts: int, electionMethod: string)
    | SpeakerPanel(itemId: int)
  {
    /** The model and object a voting started from this panel is for. */
    function Model(): ModelName {
      match this
      case MotionPanel(_) => MotionPollModel
      case ElectionPanel(_, _, _) => AssignmentPollModel
      case SpeakerPanel(_) => ItemModel
    }

    function Target(): int {
      match this
      case MotionPanel(id) => id
      case ElectionPanel(id, _, _) => id
      case SpeakerPanel(id) => id
    }
  }

  /** An election can be voted on with keypads: one open post and the method 'auto' or 'votes'. */
  predicate ElectionEnabled(openPosts: int, electionMethod: string) {
    openPosts == 1 && (electionMethod == "auto" || electionMethod == "votes")
  }

  /** The VoteCollector row runs a voting for this panel's model and object. */
  predicate RunsFor(vc: VoteCollector, p: Panel) {
    vc.isVoting && vc.votingMode == p.Model().Name() && vc.votingTarget == p.Target()
  }

  /**
   * `canStartVoting`: nothing runs, or only a speakers' voting runs (for the
   * speaker panel: one for another item); an election must be enabled; and
   * nothing before the VoteCollector row (`vc`) has been loaded.
   */
  function CanStartVoting(vc: Option<VoteCollector>, p: Panel): (b: bool)
    ensures b ==> vc.Some? && (!vc.value.isVoting || vc.value.votingMode == "Item")
    ensures b && p.SpeakerPanel? ==> !RunsFor(vc.value, p)
    ensures b && p.ElectionPanel? ==> ElectionEnabled(p.openPosts, p.electionMethod)
    ensures vc.Some? && !vc.value.isVoting ==> (b <==> !p.ElectionPanel? || ElectionEnabled(p.openPosts, p.electionMethod))
    ensures b <==>
      && vc.Some?
      && (p.ElectionPanel? ==> ElectionEnabled(p.openPosts, p.electionMethod))
      && (!vc.value.isVoting || (vc.value.votingMode == "Item" && !(p.SpeakerPanel? && RunsFor(vc.value, p))))
  {
    match p
    case MotionPanel(_) => vc.Some? && (!vc.value.isVoting || vc.value.votingMode == "Item")
    case ElectionPanel(_, posts, m) =>
      ElectionEnabled(posts, m) && vc.Some? && (!vc.value.isVoting || vc.value.votingMode == "Item")
    case SpeakerPanel(id) =>
      vc.Some? && (!vc.value.isVoting || (vc.value.votingMode == "Item" && vc.value.votingTarget != id))
  }

  /** `canStopVoting`: the running voting is this panel's own. */
  function CanStopVoting(vc: Option<VoteCollector>, p: Panel): (b: bool)
    ensures b <==> vc.Some? && RunsFor(vc.value, p)
  {
    match p
    case MotionPanel(id) => vc.Some? && vc.value.isVoting && vc.value.votingMode == "MotionPoll" && vc.value.votingTarget == id
    case ElectionPanel(id, _, _) => vc.Some? && vc.value.isVoting && vc.value.votingMode == "AssignmentPoll" && vc.value.votingTarget == id
    case SpeakerPanel(id) => vc.Some? && vc.value.isVoting && vc.value.votingMode == "Item" && vc.value.votingTarget == id
  }

  /** No panel ever offers both buttons. */
  lemma GuardsExclusive(vc: Option<VoteCollector>, p: Panel)
    ensures !(CanStartVoting(vc, p) && CanStopVoting(vc, p))
  {
  }

  /** The server-side start request a panel's start button sends. */
  predicate StartsFrom(req: StartRequest, p: Panel) {
    req.args == Args(p.Model(), p.Target())
  }

  /**
   * After the server accepted a start from a panel, that panel offers the
   * stop button and no longer the start button.
   */
  lemma StartEnablesStop(db: Db, req: StartRequest, p: Panel, callbackBase: string,
                         stopReply: DeviceReply<()>, count: int)
    requires WellFormed(req) && StartsFrom(req, p) && Exists(db, p.Model(), p.Target())
    ensures var vc := StartVoting(db, req, callbackBase, stopReply, Ok(count)).db.vc;
      CanStopVoting(Some(vc), p) && !CanStartVoting(Some(vc), p)
  {
    GuardsExclusive(Some(StartVoting(db, req, callbackBase, stopReply, Ok(count)).db.vc), p);
  }

  /**
   * The stop button leads to a result request the server answers: stopping
   * keeps the mode and the target, so the row still names the panel's poll,
   * and the panel may start again (an election only while it is enabled).
   */
  lemma StopKeepsResultAvailable(db: Db, p: Panel, stopReply: DeviceReply<()>)
    requires CanStopVoting(Some(db.vc), p)
    ensures var vc := StopVoting(db, stopReply).db.vc;
      IsCurrent(vc, p.Model(), p.Target())
      && !CanStopVoting(Some(vc), p)
      && (CanStartVoting(Some(vc), p) <==> !p.ElectionPanel? || ElectionEnabled(p.openPosts, p.electionMethod))
  {
  }

  /** The kinds of poll form that show a status line. */
  datatype PollKind = MotionKind | ElectionKind {
    function Mode(): string {
      match this
      case MotionKind => "MotionPoll"
      case ElectionKind => "AssignmentPoll"
    }
  }

  /** `getVotingStatus` of a poll form. */
  datatype Status =
    | NoStatus
    | SystemTest
    | SpeakersVoting(item: int)
    | OtherKindRunning(kind: PollKind)
    | AnotherPollRunning(kind: PollKind)
    | VotesReceived(received: int, voters: int)
  {
    /** The status line; only `NoStatus` is blank. */
    function Text(): (t: string)
      ensures t == "" <==> this.NoStatus?
    {
      match this
      case NoStatus => ""
      case SystemTest => "System test is running."
      case SpeakersVoting(item) => "Speakers voting is running for agenda item " + DecimalString(item) + "."
      case OtherKindRunning(MotionKind) => "A motion voting is running."
      case OtherKindRunning(ElectionKind) => "An election is running."
      case AnotherPollRunning(MotionKind) => "Another motion voting is running."
      case AnotherPollRunning(ElectionKind) => "Another election is running."
      case VotesReceived(r, v) => "Votes received: " + DecimalString(r) + " / " + DecimalString(v)
    }
  }

  function Other(k: PollKind): PollKind {
    if k == MotionKind then ElectionKind else MotionKind
  }

  function PanelOf(kind: PollKind, pollId: int): Panel {
    if kind == MotionKind then MotionPanel(pollId) else ElectionPanel(pollId, 1, "auto")
  }

  /** A mode the status line knows. */
  predicate KnownMode(mode: string) {
    mode == "Test" || mode == "Item" || mode == "MotionPoll" || mode == "AssignmentPoll"
  }

  /**
   * The status line of the poll form `pollId` of kind `kind`: the running
   * voting's kind, or the count of received votes when it is this poll's own.
   */
  function VotingStatus(vc: Option<VoteCollector>, kind: PollKind, pollId: int): (s: Status)
    ensures s.VotesReceived? <==> CanStopVoting(vc, PanelOf(kind, pollId))
    ensures s.VotesReceived? ==> s.received == vc.value.votesReceived && s.voters == vc.value.votersCount
    ensures s.NoStatus? <==> vc.None? || !vc.value.isVoting || !KnownMode(vc.value.votingMode)
    ensures s.SystemTest? <==> vc.Some? && vc.value.isVoting && vc.value.votingMode == "Test"
    ensures s.SpeakersVoting? <==> vc.Some? && vc.value.isVoting && vc.value.votingMode == "Item"
    ensures s.OtherKindRunning? <==> vc.Some? && vc.value.isVoting && vc.value.votingMode == Other(kind).Mode()
    ensures s.AnotherPollRunning? <==>
      vc.Some? && vc.value.isVoting && vc.value.votingMode == kind.Mode() && vc.value.votingTarget != pollId
    ensures s.SpeakersVoting? ==> vc.value.votingMode == "Item" && s.item == vc.value.votingTarget
    ensures s.AnotherPollRunning? ==> s.kind == kind && vc.value.votingMode == kind.Mode() && vc.value.votingTarget != pollId
    ensures s.OtherKindRunning? ==> s.kind == Other(kind) && vc.value.votingMode == Other(kind).Mode()
  {
    if vc.None? || !vc.value.isVoting then NoStatus
    else
      var v := vc.value;
      if v.votingMode == "Test" then SystemTest
      else if v.votingMode == "Item" then SpeakersVoting(v.votingTarget)
      else if v.votingMode == Other(kind).Mode() then OtherKindRunning(Other(kind))
      else if v.votingMode == kind.Mode() then
        if v.votingTarget != pollId then AnotherPollRunning(kind) else VotesReceived(v.votesReceived, v.votersCount)
      else NoStatus
  }

  /** The alert a stop leaves: none, an error message, or the prompt to save the received votes. */
  datatype Alert = NoAlert | Danger(msg: string) | Finished(received: int, voters: int)

  /** `votes[i]` of a result list: `undefined` past its end. */
  function Nth(votes: seq<int>, i: nat): (r: Option<int>)
    ensures r.Some? <==> i < |votes|
  {
    if i < |votes| then Some(votes[i]) else None
  }

  /** The result fields of a motion poll form; None is `null` or `undefined`. */
  datatype MotionForm = MotionForm(yes: Option<int>, no: Option<int>, abstain: Option<int>,
                                   votesValid: Option<int>, votesInvalid: Option<int>, votesCast: Option<int>)

  datatype MotionView = MotionView(form: MotionForm, alert: Alert)

  /**
   * `VotingCtrl.stopVoting`: on a stop error or a result error the form is
   * left alone and the error shown; a failed result request has no handler,
   * so the form stays and the cleared alert stays empty; otherwise yes, no
   * and abstain are the device's three counts and valid and cast votes both
   * the received count.
   */
  function MotionStopVoting(form: MotionForm, vc: VoteCollector, stop: StopResponse, result: ResultResponse): (v: MotionView)
    ensures stop.StopFailed? ==> v == MotionView(form, Danger(stop.error.Text()))
    ensures stop.Stopped? && result.ResultFailed? ==> v == MotionView(form, Danger(result.error.Text()))
    ensures stop.Stopped? && result.ResultServerError? ==> v == MotionView(form, NoAlert)
    ensures stop.Stopped? && result.Delivered() ==>
      && v.alert == Finished(vc.votesReceived, vc.votersCount)
      && v.form.votesValid == Some(vc.votesReceived) && v.form.votesCast == v.form.votesValid
      && v.form.votesInvalid == Some(0)
    ensures stop.Stopped? && result.YesNoAbstainVotes? && |result.votes| >= 3 ==>
      v.form.yes == Some(result.votes[0]) && v.form.no == Some(result.votes[1]) && v.form.abstain == Some(result.votes[2])
  {
    match stop
    case StopFailed(e) => MotionView(form, Danger(e.Text()))
    case Stopped =>
      match result
      case ResultFailed(e) => MotionView(form, Danger(e.Text()))
      case ResultServerError => MotionView(form, NoAlert)
      case YesNoAbstainVotes(votes) =>
        var received := Some(vc.votesReceived);
        MotionView(MotionForm(Nth(votes, 0), Nth(votes, 1), Nth(votes, 2), received, Some(0), received),
                   Finished(vc.votesReceived, vc.votersCount))
      case ElectionVotes(_) =>
        var received := Some(vc.votesReceived);
        MotionView(MotionForm(None, None, None, received, Some(0), received), Finished(vc.votesReceived, vc.votersCount))
  }

  /** The yes, no and abstain fields of one candidate (`yes_<id>`, `no_<id>`, `abstain_<id>`). */
  datatype Yna = Yna(yes: Option<int>, no: Option<int>, abstain: Option<int>)

  /** The result fields of an election poll form: per-candidate `yes_/no_/abstain_<id>` and `vote_<id>`, and the totals. */
  datatype ElectionForm = ElectionForm(yna: map<Pk, Yna>, votes: map<Pk, Option<int>>,
                                       votesValid: Option<int>, votesInvalid: Option<int>, votesCast: Option<int>)

  datatype ElectionView = ElectionView(form: ElectionForm, alert: Alert)

  /** `result[key]` for a candidate: `undefined` when the result has no such key (or is a list). */
  function CountFor(result: Option<map<Pk, int>>, c: Pk): (r: Option<int>)
    ensures r.Some? <==> result.Some? && c in result.value
    ensures r.Some? ==> r.value == result.value[c]
  {
    if result.Some? && c in result.value then Some(result.value[c]) else None
  }

  /** The loop `poll['vote_' + candidate] = votes['vote_' + candidate]` over the options. */
  function CopyVotes(votes: map<Pk, Option<int>>, options: seq<AssignmentOption>, result: Option<map<Pk, int>>): (r: map<Pk, Option<int>>)
    ensures r.Keys == votes.Keys + CandidatesOf(options)
    ensures forall c :: c in CandidatesOf(options) ==> r[c] == CountFor(result, c)
    ensures forall c :: c in votes && c !in CandidatesOf(options) ==> r[c] == votes[c]
  {
    if |options| == 0 then votes
    else
      var init := options[..|options| - 1];
      var c := options[|options| - 1].candidate;
      assert options == init + [options[|options| - 1]];
      assert CandidatesOf(options) == CandidatesOf(init) + {c};
      CopyVotes(votes, init, result)[c := CountFor(result, c)]
  }

  /**
   * `ElectionCtrl.stopVoting`: errors leave the form alone (a failed result
   * request, which has no handler, without an alert). A yes/no/abstain
   * poll takes the device's three counts for its first option's candidate,
   * valid votes the received count and invalid 0 (with no option the handler
   * fails before touching anything). Any other poll takes every option's
   * count and the valid and invalid totals from the server's count. Cast
   * votes are the received count.
   */
  function ElectionStopVoting(form: ElectionForm, yesNoAbstain: bool, options: seq<AssignmentOption>,
                              vc: VoteCollector, stop: StopResponse, result: ResultResponse): (v: ElectionView)
    ensures stop.StopFailed? ==> v == ElectionView(form, Danger(stop.error.Text()))
    ensures stop.Stopped? && result.ResultFailed? ==> v == ElectionView(form, Danger(result.error.Text()))
    ensures stop.Stopped? && result.ResultServerError? ==> v == ElectionView(form, NoAlert)
    ensures stop.Stopped? && result.Delivered() && yesNoAbstain && |options| == 0 ==> v == ElectionView(form, NoAlert)
    ensures stop.Stopped? && result.Delivered() && (!yesNoAbstain || |options| > 0) ==>
      && v.alert == Finished(vc.votesReceived, vc.votersCount)
      && v.form.votesCast == Some(vc.votesReceived)
    ensures stop.Stopped? && result.Delivered() && yesNoAbstain && |options| > 0 ==>
      && v.form.votes == form.votes
      && v.form.yna.Keys == form.yna.Keys + {options[0].candidate}
      && v.form.votesValid == Some(vc.votesReceived) && v.form.votesInvalid == Some(0)
      && (result.YesNoAbstainVotes? && |result.votes| >= 3 ==>
            v.form.yna[options[0].candidate] == Yna(Some(result.votes[0]), Some(result.votes[1]), Some(result.votes[2])))
    ensures stop.Stopped? && result.ElectionVotes? && !yesNoAbstain ==>
      && v.form.yna == form.yna
      && (forall c :: c in CandidatesOf(options) ==> c in v.form.votes && v.form.votes[c] == CountFor(Some(result.tally.votes), c))
      && v.form.votesValid == Some(result.tally.valid) && v.form.votesInvalid == Some(result.tally.invalid)
  {
    match stop
    case StopFailed(e) => ElectionView(form, Danger(e.Text()))
    case Stopped =>
      if result.ResultFailed? then ElectionView(form, Danger(result.error.Text()))
      else if result.ResultServerError? then ElectionView(form, NoAlert)
      else
        var received := Some(vc.votesReceived);
        var done := Finished(vc.votesReceived, vc.votersCount);
        if yesNoAbstain then
          if |options| == 0 then ElectionView(form, NoAlert)
          else
            var counts := if result.YesNoAbstainVotes? then
                            Yna(Nth(result.votes, 0), Nth(result.votes, 1), Nth(result.votes, 2))
                          else Yna(None, None, None);
            var yna := form.yna[options[0].candidate := counts];
            ElectionView(form.(yna := yna, votesValid := received, votesInvalid := Some(0), votesCast := received), done)
        else
          var tally := if result.ElectionVotes? then Some(result.tally.votes) else None;
          var valid := if result.ElectionVotes? then Some(result.tally.valid) else None;
          var invalid := if result.ElectionVotes? then Some(result.tally.invalid) else None;
          ElectionView(form.(votes := CopyVotes(form.votes, options, tally), votesValid := valid,
                             votesInvalid := invalid, votesCast := received), done)
  }

  /**
   * The form a server-counted election leaves: each candidate's field holds
   * the keypads that chose it, and valid plus invalid is the number of the
   * poll's keypad rows.
   */
  lemma ElectionFormMatchesCount(form: ElectionForm, options: seq<AssignmentOption>, vc: VoteCollector,
                                 t: ElectionTally, cs: seq<Conn>, poll: int)
    requires IsTallyOf(t, cs, poll, options)
    ensures var f := ElectionStopVoting(form, false, options, vc, Stopped, ElectionVotes(t)).form;
      && (forall c :: c in CandidatesOf(options) ==> f.votes[c] == Some(CountCandidate(cs, poll, c)))
      && f.votesValid.Some? && f.votesInvalid.Some?
      && f.votesValid.value + f.votesInvalid.value == |OfPoll(cs, poll)|
  {
    TallyConservation(t, cs, poll, options);
  }

  /** One line of the single-vote table. */
  datatype VoteRow = VoteRow(user: Option<User>, keypad: Option<Keypad>, serial: Option<string>, value: string, candidate: Option<User>)

  /** Every keypad a row of the poll names is in the data store (the table's foreign key). */
  predicate KeypadsResolve(cs: seq<Conn>, poll: int, keypads: seq<Keypad>) {
    forall i :: 0 <= i < |cs| && cs[i].poll == poll && cs[i].keypad.Some? ==> KeypadByPk(keypads, cs[i].keypad.value).Some?
  }

  /** The table line of one keypad row: its keypad, the keypad's user, and for elections the candidate. */
  function RowFor(c: Conn, keypads: seq<Keypad>, users: seq<User>, withCandidate: bool): VoteRow
    requires c.keypad.Some? ==> KeypadByPk(keypads, c.keypad.value).Some?
  {
    var keypad := if c.keypad.Some? then KeypadByPk(keypads, c.keypad.value) else None;
    var user := if keypad.Some? && keypad.value.user.Some? then UserById(users, keypad.value.user.value) else None;
    var candidate := if withCandidate && c.candidate.Some? then UserById(users, c.candidate.value) else None;
    VoteRow(user, keypad, c.serial, c.value, candidate)
  }

  /** Some participant of the store has this id. */
  predicate Registered(users: seq<User>, id: Pk) {
    exists i :: 0 <= i < |users| && users[i].id == id
  }

  /** `shown` is the participant with id `id` when the store has one, and nothing otherwise. */
  predicate ShowsUser(shown: Option<User>, id: Option<Pk>, users: seq<User>) {
    && (shown.Some? ==> shown.value in users && id == Some(shown.value.id))
    && (shown.None? ==> id.None? || !Registered(users, id.value))
  }

  /**
   * The line `r` shows the keypad row `c`: its serial number and value, its
   * keypad, the keypad's participant and, on an election page, the candidate.
   */
  predicate Shows(r: VoteRow, c: Conn, keypads: seq<Keypad>, users: seq<User>, withCandidate: bool) {
    && r.serial == c.serial && r.value == c.value
    && (r.keypad.None? <==> c.keypad.None?)
    && (r.keypad.Some? ==> r.keypad.value in keypads && c.keypad == Some(r.keypad.value.pk))
    && ShowsUser(r.user, if r.keypad.Some? then r.keypad.value.user else None, users)
    && ShowsUser(r.candidate, if withCandidate then c.candidate else None, users)
  }

  /** The line built for a row shows that row. */
  lemma RowForShows(c: Conn, keypads: seq<Keypad>, users: seq<User>, withCandidate: bool)
    requires c.keypad.Some? ==> KeypadByPk(keypads, c.keypad.value).Some?
    ensures Shows(RowFor(c, keypads, users, withCandidate), c, keypads, users, withCandidate)
  {
  }

  /** The rows of the poll name only keypads of the store. */
  lemma OfPollResolves(cs: seq<Conn>, poll: int, keypads: seq<Keypad>)
    requires KeypadsResolve(cs, poll, keypads)
    ensures forall i :: 0 <= i < |OfPoll(cs, poll)| && OfPoll(cs, poll)[i].keypad.Some? ==>
      KeypadByPk(keypads, OfPoll(cs, poll)[i].keypad.value).Some?
  {
    var of := OfPoll(cs, poll);
    var idx := KeptIndices(cs, InPoll(poll));
    assert forall i :: 0 <= i < |of| ==> of[i] == cs[idx[i]] && cs[idx[i]].poll == poll;
  }

  /**
   * The `votesList` watcher of the motion and election poll pages: one line
   * per keypad row of the poll, in table order.
   */
  function VotesList(cs: seq<Conn>, poll: int, keypads: seq<Keypad>, users: seq<User>, withCandidate: bool): (rows: seq<VoteRow>)
    requires KeypadsResolve(cs, poll, keypads)
    ensures |rows| == |OfPoll(cs, poll)|
    ensures forall i :: 0 <= i < |rows| ==> Shows(rows[i], OfPoll(cs, poll)[i], keypads, users, withCandidate)
  {
    var of := OfPoll(cs, poll);
    OfPollResolves(cs, poll, keypads);
    var rows := seq(|of|, i requires 0 <= i < |of| => RowFor(of[i], keypads, users, withCandidate));
    assert forall i :: 0 <= i < |rows| ==> Shows(rows[i], of[i], keypads, users, withCandidate) by {
      forall i | 0 <= i < |rows| ensures Shows(rows[i], of[i], keypads, users, withCandidate) {
        RowForShows(of[i], keypads, users, withCandidate);
      }
    }
    rows
  }

  /** Clearing the keypad of the poll's rows only, row by row, clears it in the poll's rows in order. */
  lemma {:induction false} OfPollPointwise(cs: seq<Conn>, ds: seq<Conn>, poll: int)
    requires |cs| == |ds|
    requires forall i :: 0 <= i < |cs| ==> ds[i].poll == cs[i].poll
    requires forall i :: 0 <= i < |cs| && cs[i].poll == poll ==> ds[i] == cs[i].(keypad := None)
    ensures |OfPoll(ds, poll)| == |OfPoll(cs, poll)|
    ensures forall i :: 0 <= i < |OfPoll(cs, poll)| ==> OfPoll(ds, poll)[i] == OfPoll(cs, poll)[i].(keypad := None)
  {
    var keep := InPoll(poll);
    KeptIndicesAgree(cs, ds, keep);
    var idx := KeptIndices(cs, keep);
    var oc, od := OfPoll(cs, poll), OfPoll(ds, poll);
    assert |oc| == |idx| == |od|;
    forall i | 0 <= i < |oc|
      ensures od[i] == oc[i].(keypad := None)
    {
      assert oc[i] == cs[idx[i]] && od[i] == ds[idx[i]];
      assert keep(cs[idx[i]]);
    }
  }

  /**
   * After anonymization the single-vote table of the poll shows the same
   * lines, serial numbers and values in the same order, with neither keypad
   * nor participant.
   */
  lemma AnonymizedVotesList(cs: seq<Conn>, poll: int, keypads: seq<Keypad>, users: seq<User>, withCandidate: bool)
    ensures var a := Anonymize(cs, Some(poll));
      KeypadsResolve(a, poll, keypads)
      && var rows := VotesList(a, poll, keypads, users, withCandidate);
      && |rows| == |OfPoll(cs, poll)|
      && forall i :: 0 <= i < |rows| ==>
           rows[i].keypad.None? && rows[i].user.None?
           && rows[i].serial == OfPoll(cs, poll)[i].serial && rows[i].value == OfPoll(cs, poll)[i].value
  {
    var a := Anonymize(cs, Some(poll));
    forall i | 0 <= i < |cs| && cs[i].poll == poll
      ensures a[i] == cs[i].(keypad := None)
    {
    }
    OfPollPointwise(cs, a, poll);
    var od := OfPoll(a, poll);
    assert KeypadsResolve(a, poll, keypads) by {
      forall i | 0 <= i < |a| && a[i].poll == poll
        ensures a[i].keypad.None?
      {
      }
    }
    var rows := VotesList(a, poll, keypads, users, withCandidate);
    forall i | 0 <= i < |rows|
      ensures rows[i].keypad.None? && rows[i].user.None?
    {
      assert Shows(rows[i], od[i], keypads, users, withCandidate);
      assert od[i].keypad.None?;
    }
  }

  /** The keypad list's sort: the column and whether the order is reversed. */
  datatype SortState = SortState(column: string, reverse: bool)

  /** `toggleSort`: a click on the sorted column flips the order, a click on another column sorts by it. */
  function ToggleSort(s: SortState, column: string): (r: SortState)
    ensures r.column == column
    ensures s.column != column ==> r.reverse == s.reverse
  {
    SortState(column, if s.column == column then !s.reverse else s.reverse)
  }

  /** Two clicks on the same column end where they started; a click on another column and back flips once. */
  lemma ToggleSortTwice(s: SortState, column: string)
    ensures ToggleSort(ToggleSort(s, column), column).column == column
    ensures ToggleSort(ToggleSort(s, column), column).reverse == (if s.column == column then s.reverse else !s.reverse)
    ensures s.column == column ==> ToggleSort(ToggleSort(s, column), column) == s
  {
  }

  /** `keypad.seat.number`: the label of the keypad's seat, or "" when the keypad has none in the store. */
  function SeatLabelOf(k: Keypad, seats: seq<Seat>): (t: string)
    ensures (exists i :: 0 <= i < |seats| && k.seat == Some(seats[i].id)) ==>
      exists i :: 0 <= i < |seats| && k.seat == Some(seats[i].id) && t == seats[i].number
    ensures (forall i :: 0 <= i < |seats| ==> k.seat != Some(seats[i].id)) ==> t == ""
  {
    if k.seat.Some? && SeatById(seats, k.seat.value).Some? then SeatById(seats, k.seat.value).value.number else ""
  }

  /** `keypad.user.get_full_name()`: the full name of the keypad's participant, or "" when it has none in the store. */
  function UserNameOf(k: Keypad, users: seq<User>, fullName: User -> string): (t: string)
    ensures (exists i :: 0 <= i < |users| && k.user == Some(users[i].id)) ==>
      exists i :: 0 <= i < |users| && k.user == Some(users[i].id) && t == fullName(users[i])
    ensures (forall i :: 0 <= i < |users| ==> k.user != Some(users[i].id)) ==> t == ""
  {
    if k.user.Some? && UserById(users, k.user.value).Some? then fullName(UserById(users, k.user.value).value) else ""
  }

  /**
   * `getFilterString`: the keypad number, the seat label and the user's full
   * name, joined by spaces, a missing seat or user as the empty string. The
   * user's full name comes from the OpenSlides user model, a parameter here.
   */
  function GetFilterString(k: Keypad, seats: seq<Seat>, users: seq<User>, fullName: User -> string): (s: string)
    ensures s == DecimalString(k.keypadId) + " " + SeatLabelOf(k, seats) + " " + UserNameOf(k, users, fullName)
    ensures var d := DecimalString(k.keypadId);
      |d| < |s| && s[..|d|] == d && s[|d|] == ' '
  {
    var parts := [DecimalString(k.keypadId), SeatLabelOf(k, seats), UserNameOf(k, users, fullName)];
    parts[0] + " " + parts[1] + " " + parts[2]
  }

  /** The text before the first space. */
  function FirstWord(s: string): (w: string)
    ensures |w| <= |s| && w == s[..|w|]
    ensures forall i :: 0 <= i < |w| ==> w[i] != ' '
  {
    if |s| == 0 || s[0] == ' ' then "" else [s[0]] + FirstWord(s[1..])
  }

  lemma {:induction false} FirstWordOf(d: string, rest: string)
    requires forall i :: 0 <= i < |d| ==> d[i] != ' '
    ensures FirstWord(d + " " + rest) == d
  {
    if |d| > 0 {
      assert (d + " " + rest)[1..] == d[1..] + " " + rest;
      FirstWordOf(d[1..], rest);
    }
  }

  /** A search for the keypad's number finds it: the filter string's first word is that number. */
  lemma FilterStringNamesKeypad(k: Keypad, seats: seq<Seat>, users: seq<User>, fullName: User -> string)
    ensures FirstWord(GetFilterString(k, seats, users, fullName)) == DecimalString(k.keypadId)
    ensures JsLooseEquals(k.keypadId, FirstWord(GetFilterString(k, seats, users, fullName)))
  {
    var d := DecimalString(k.keypadId);
    var s := GetFilterString(k, seats, users, fullName);
    assert forall i :: 0 <= i < |d| ==> d[i] != ' ' by {
      forall i | 0 <= i < |d| ensures d[i] != ' ' {
        if i > 0 {
          assert d[1..][i - 1] == d[i];
        }
      }
    }
    assert s == d + " " + s[|d| + 1..];
    FirstWordOf(d, s[|d| + 1..]);
    JsLooseEqualsDecimal(k.keypadId);
  }
}

=== FILE: common.dfy ===
/** Shared wrapper types of the VoteCollector model. */
module Common {

  /** An optional value: Python's None, JavaScript's null/undefined. */
  datatype Option<+T> = None | Some(value: T) {

    /** The value, or a default when absent (`request.POST.get(key, default)`). */
    function GetOr(default: T): T {
      match this
      case Some(v) => v
      case None => default
    }
  }

  /** A database primary key; auto-increment ids start at 1, so they are truthy in JavaScript. */
  type Pk = x: int | x >= 1 witness 1

  /**
   * The outcome of one round trip to the VoteCollector device. The device is
   * not part of this model: every call is an input that either succeeds with a
   * value or raises `VoteCollectorError` carrying a message.
   */
  datatype DeviceReply<+T> = Ok(value: T) | Err(msg: string)
  /** The positions of `xs` whose element satisfies `keep`, in ascending order. */
  function KeptIndices<T>(xs: seq<T>, keep: T -> bool): (idx: seq<nat>)
    ensures |idx| <= |xs|
    ensures forall j :: 0 <= j < |idx| ==> idx[j] < |xs| && keep(xs[idx[j]])
    ensures forall j, k :: 0 <= j < k < |idx| ==> idx[j] < idx[k]
    ensures forall i :: 0 <= i < |xs| && keep(xs[i]) ==> i in idx
  {
    if |xs| == 0 then []
    else
      var n := |xs| - 1;
      var prev := KeptIndices(xs[..n], keep);
      if keep(xs[n]) then prev + [n] else prev
  }

  /**
   * `r` is the subsequence of `xs` made of the elements `keep` accepts: the
   * element at each kept position, in the order of the positions.
   */
  ghost predicate KeepsInOrder<T>(r: seq<T>, xs: seq<T>, keep: T -> bool) {
    var idx := KeptIndices(xs, keep);
    |r| == |idx| && forall j :: 0 <= j < |r| ==> r[j] == xs[idx[j]]
  }

  /** Appending one element keeps the subsequence relation, with the element kept when `keep` accepts it. */
  lemma KeepsInOrderSnoc<T>(r: seq<T>, xs: seq<T>, x: T, keep: T -> bool)
    requires KeepsInOrder(r, xs, keep)
    ensures KeepsInOrder(if keep(x) then r + [x] else r, xs + [x], keep)
  {
    var ys := xs + [x];
    assert ys[..|xs|] == xs;
    var idx := KeptIndices(xs, keep);
    assert KeptIndices(ys, keep) == idx + (if keep(x) then [|xs|] else []);
    assert forall j :: 0 <= j < |idx| ==> ys[idx[j]] == xs[idx[j]];
  }

  /** Whether some element of `xs` satisfies `p`. */
  function AnyOf<T>(xs: seq<T>, p: T -> bool): (b: bool)
    ensures b <==> exists j :: 0 <= j < |xs| && p(xs[j])
  {
    if |xs| == 0 then false
    else
      var rest := xs[..|xs| - 1];
      assert forall j :: 0 <= j < |rest| ==> rest[j] == xs[j];
      p(xs[|xs| - 1]) || AnyOf(rest, p)
  }

  /** Two sequences the filter accepts at the same positions keep the same indices. */
  lemma {:induction false} KeptIndicesAgree<T>(xs: seq<T>, ys: seq<T>, keep: T -> bool)
    requires |xs| == |ys|
    requires forall i :: 0 <= i < |xs| ==> keep(xs[i]) == keep(ys[i])
    ensures KeptIndices(xs, keep) == KeptIndices(ys, keep)
  {
    if |xs| > 0 {
      KeptIndicesAgree(xs[..|xs| - 1], ys[..|ys| - 1], keep);
    }
  }

  /** Every value occurs in `r` as often as in `xs` when `keep` accepts it, and not at all otherwise. */
  ghost predicate KeepsCounts<T(!new)>(r: seq<T>, xs: seq<T>, keep: T -> bool) {
    forall x :: multiset(r)[x] == if keep(x) then multiset(xs)[x] else 0
  }

  lemma KeepsCountsSnoc<T(!new)>(r: seq<T>, xs: seq<T>, x: T, keep: T -> bool)
    requires KeepsCounts(r, xs, keep)
    ensures KeepsCounts(if keep(x) then r + [x] else r, xs + [x], keep)
  {
    assert multiset(xs + [x]) == multiset(xs) + multiset{x};
    assert multiset(r + [x]) == multiset(r) + multiset{x};
  }

  /** A query set's `filter`, a list's `filter`: the elements `keep` accepts, in order, each as often as in `xs`. */
  function Filter<T(!new)>(xs: seq<T>, keep: T -> bool): (r: seq<T>)
    ensures |r| <= |xs| && KeepsInOrder(r, xs, keep)
    ensures KeepsCounts(r, xs, keep)
  {
    if |xs| == 0 then []
    else
      var n := |xs| - 1;
      var init := xs[..n];
      var prev := Filter(init, keep);
      var r := if keep(xs[n]) then prev + [xs[n]] else prev;
      assert xs == init + [xs[n]];
      KeepsInOrderSnoc(prev, init, xs[n], keep);
      KeepsCountsSnoc(prev, init, xs[n], keep);
      r
  }
}

=== FILE: connections.dfy ===
/**
 * The keypad-connection tables: one row per (poll, keypad) vote, written by the
 * device callbacks, cleared when a poll is restarted, anonymized on request
 * and counted into an election result.
 */
module Connections {
  import opened Common
  import opened Models

  /** The row `get_or_create(poll=poll, keypad=kp)` looks for. */
  predicate Matches(c: Conn, poll: int, kp: Pk) {
    c.poll == poll && c.keypad == Some(kp)
  }

  /** At most one row per (poll, keypad); anonymized rows (no keypad) are exempt. */
  ghost predicate UniquePairs(cs: seq<Conn>) {
    forall i, j :: 0 <= i < j < |cs| && cs[i].keypad.Some? && cs[i].poll == cs[j].poll ==> cs[i].keypad != cs[j].keypad
  }

  /** The index of the first row for (poll, kp), if there is one. */
  function FindConn(cs: seq<Conn>, poll: int, kp: Pk): (r: Option<nat>)
    ensures r.Some? ==> r.value < |cs| && Matches(cs[r.value], poll, kp)
    ensures r.Some? ==> forall i :: 0 <= i < r.value ==> !Matches(cs[i], poll, kp)
    ensures r.None? <==> forall i :: 0 <= i < |cs| ==> !Matches(cs[i], poll, kp)
  {
    if |cs| == 0 then None
    else if Matches(cs[0], poll, kp) then Some(0)
    else match FindConn(cs[1..], poll, kp)
      case None => None
      case Some(i) => Some(i + 1)
  }

  /** A matching row with no match before it is the one `FindConn` finds. */
  lemma FindConnFirst(cs: seq<Conn>, poll: int, kp: Pk, i: nat)
    requires i < |cs| && Matches(cs[i], poll, kp)
    requires forall j :: 0 <= j < i ==> !Matches(cs[j], poll, kp)
    ensures FindConn(cs, poll, kp) == Some(i)
  {
    assert !forall j :: 0 <= j < |cs| ==> !Matches(cs[j], poll, kp);
  }

  /**
   * On a table with at most one row per (poll, keypad), the row found is the
   * only match: the row `get()` returns without raising.
   */
  lemma UniqueFindsOnlyRow(cs: seq<Conn>, poll: int, kp: Pk)
    requires UniquePairs(cs)
    ensures FindConn(cs, poll, kp).Some? ==>
      forall j :: 0 <= j < |cs| && Matches(cs[j], poll, kp) ==> j == FindConn(cs, poll, kp).value
  {
  }

  /** Whether a vote also sets the row's candidate (election key votes) or leaves it alone. */
  datatype CandidateUpdate = KeepCandidate | SetCandidate(c: Option<Pk>)

  /** The candidate update of two votes in a row: the later one wins if it sets a candidate. */
  function Combine(first: CandidateUpdate, second: CandidateUpdate): CandidateUpdate {
    if second.SetCandidate? then second else first
  }

  function Updated(prev: Option<Pk>, cu: CandidateUpdate): Option<Pk> {
    if cu.SetCandidate? then cu.c else prev
  }

  /**
   * `r` is `cs` with only the row of (poll, kp) written: every other row stays
   * in place, no row changes its poll or keypad, and a row is appended, for
   * that pair, exactly when `cs` had none.
   */
  ghost predicate WritesOnly(r: seq<Conn>, cs: seq<Conn>, poll: int, kp: Pk) {
    && |r| == |cs| + (if FindConn(cs, poll, kp).None? then 1 else 0)
    && (forall i :: 0 <= i < |cs| && !Matches(cs[i], poll, kp) ==> r[i] == cs[i])
    && (forall i :: 0 <= i < |cs| ==> r[i].poll == cs[i].poll && r[i].keypad == cs[i].keypad)
    && (|r| > |cs| ==> Matches(r[|cs|], poll, kp))
  }

  /** The candidate of the row of (poll, kp) before a vote: that row's, or none for a row still to be created. */
  function PriorCandidate(cs: seq<Conn>, poll: int, kp: Pk): Option<Pk> {
    match FindConn(cs, poll, kp)
    case Some(i) => cs[i].candidate
    case None => None
  }

  /** The row of (poll, kp) in `r` has the candidate it had in `cs`, or none if it was created. */
  predicate KeepsCandidate(r: seq<Conn>, cs: seq<Conn>, poll: int, kp: Pk) {
    FindConn(r, poll, kp).Some? && r[FindConn(r, poll, kp).value].candidate == PriorCandidate(cs, poll, kp)
  }

  /** The table after the write of `Record`, without its contract: the found row overwritten, or a new row appended. */
  function Written(cs: seq<Conn>, poll: int, kp: Pk, serial: Option<string>, value: string, cu: CandidateUpdate): seq<Conn> {
    match FindConn(cs, poll, kp)
    case Some(i) => cs[i := cs[i].(serial := serial, value := value, candidate := Updated(cs[i].candidate, cu))]
    case None => cs + [Conn(poll, Some(kp), serial, value, Updated(None, cu))]
  }

  /**
   * `get_or_create(poll, keypad)` followed by setting serial number, value and
   * (for election key votes) candidate, then `save()`.
   */
  function Record(cs: seq<Conn>, poll: int, kp: Pk, serial: Option<string>, value: string, cu: CandidateUpdate): (r: seq<Conn>)
    ensures WritesOnly(r, cs, poll, kp)
    ensures FindConn(r, poll, kp).Some?
    ensures var c := r[FindConn(r, poll, kp).value];
      c.serial == serial && c.value == value && (cu.SetCandidate? ==> c.candidate == cu.c)
    ensures cu.KeepCandidate? ==> KeepsCandidate(r, cs, poll, kp)
    ensures UniquePairs(cs) ==> UniquePairs(r)
  {
    var r := Written(cs, poll, kp, serial, value, cu);
    match FindConn(cs, poll, kp)
    case Some(i) =>
      FindConnFirst(r, poll, kp, i);
      r
    case None =>
      FindConnFirst(r, poll, kp, |cs|);
      r
  }

  /**
   * Last vote wins: a keypad voting twice in one poll leaves the table as if
   * it had voted once, with the second vote's serial number and value.
   */
  lemma {:induction false} RecordTwice(cs: seq<Conn>, poll: int, kp: Pk,
                                       s1: Option<string>, v1: string, cu1: CandidateUpdate,
                                       s2: Option<string>, v2: string, cu2: CandidateUpdate)
    ensures Record(Record(cs, poll, kp, s1, v1, cu1), poll, kp, s2, v2, cu2)
         == Record(cs, poll, kp, s2, v2, Combine(cu1, cu2))
  {
    var r1 := Record(cs, poll, kp, s1, v1, cu1);
    assert r1 == Written(cs, poll, kp, s1, v1, cu1);
    assert Record(r1, poll, kp, s2, v2, cu2) == Written(r1, poll, kp, s2, v2, cu2);
    assert Record(cs, poll, kp, s2, v2, Combine(cu1, cu2)) == Written(cs, poll, kp, s2, v2, Combine(cu1, cu2));
    WrittenTwice(cs, poll, kp, s1, v1, cu1, s2, v2, cu2);
  }

  /** `RecordTwice` for the bare write. */
  lemma WrittenTwice(cs: seq<Conn>, poll: int, kp: Pk,
                     s1: Option<string>, v1: string, cu1: CandidateUpdate,
                     s2: Option<string>, v2: string, cu2: CandidateUpdate)
    ensures Written(Written(cs, poll, kp, s1, v1, cu1), poll, kp, s2, v2, cu2)
         == Written(cs, poll, kp, s2, v2, Combine(cu1, cu2))
  {
    var r1 := Written(cs, poll, kp, s1, v1, cu1);
    match FindConn(cs, poll, kp)
    case Some(i) =>
      FindConnFirst(r1, poll, kp, i);
      var c2 := cs[i].(serial := s2, value := v2, candidate := Updated(cs[i].candidate, Combine(cu1, cu2)));
      assert r1[i].(serial := s2, value := v2, candidate := Updated(r1[i].candidate, cu2)) == c2;
      assert r1[i := c2] == cs[i := c2];
    case None =>
      FindConnFirst(r1, poll, kp, |cs|);
      var c2 := Conn(poll, Some(kp), s2, v2, Updated(None, Combine(cu1, cu2)));
      assert r1[|cs| := c2] == cs + [c2];
  }

  /** The anonymized copy of one row: the keypad reference is cleared, nothing else. */
  function Anonymized(c: Conn, poll: Option<int>): Conn {
    if Some(c.poll) == poll then c.(keypad := None) else c
  }

  /**
   * `anonymize_votes`: clears the keypad of every row of the given poll (none
   * when the request carries no poll id).
   */
  function Anonymize(cs: seq<Conn>, poll: Option<int>): (r: seq<Conn>)
    ensures |r| == |cs|
    ensures forall i :: 0 <= i < |cs| ==>
      r[i].poll == cs[i].poll && r[i].serial == cs[i].serial
      && r[i].value == cs[i].value && r[i].candidate == cs[i].candidate
    ensures forall i :: 0 <= i < |cs| ==> (r[i].keypad.None? <==> cs[i].keypad.None? || Some(cs[i].poll) == poll)
    ensures forall i :: 0 <= i < |cs| && Some(cs[i].poll) != poll ==> r[i] == cs[i]
  {
    if |cs| == 0 then [] else [Anonymized(cs[0], poll)] + Anonymize(cs[1..], poll)
  }

  /** Anonymizing a poll twice is the same as anonymizing it once. */
  lemma AnonymizeIdempotent(cs: seq<Conn>, poll: Option<int>)
    ensures Anonymize(Anonymize(cs, poll), poll) == Anonymize(cs, poll)
  {
    var a := Anonymize(cs, poll);
    var b := Anonymize(a, poll);
    assert forall i :: 0 <= i < |a| ==> b[i] == a[i];
  }

  /** Anonymizing keeps at most one row per (poll, keypad). */
  lemma AnonymizeKeepsUnique(cs: seq<Conn>, poll: Option<int>)
    requires UniquePairs(cs)
    ensures UniquePairs(Anonymize(cs, poll))
  {
  }

  /** The filter condition "the row belongs to `poll`". */
  function InPoll(poll: int): Conn -> bool {
    (c: Conn) => c.poll == poll
  }

  /** The filter condition "the row belongs to another poll". */
  function NotInPoll(poll: int): Conn -> bool {
    (c: Conn) => c.poll != poll
  }

  /**
   * `Model.objects.filter(poll=poll).delete()`: drops every row of the poll;
   * every other row stays, as often as before and in the same order.
   */
  function DeletePoll(cs: seq<Conn>, poll: int): (r: seq<Conn>)
    ensures KeepsInOrder(r, cs, NotInPoll(poll))
    ensures forall c :: multiset(r)[c] == if c.poll != poll then multiset(cs)[c] else 0
    ensures forall c :: c in r <==> c in cs && c.poll != poll
    ensures |r| <= |cs|
    ensures UniquePairs(cs) ==> UniquePairs(r)
  {
    var r := Filter(cs, NotInPoll(poll));
    ghost var idx := KeptIndices(cs, NotInPoll(poll));
    assert forall j :: 0 <= j < |r| ==> r[j] == cs[idx[j]];
    r
  }

  /** The rows of one poll, in table order (`filter(poll_id=poll)`), each as often as in the table. */
  function OfPoll(cs: seq<Conn>, poll: int): (r: seq<Conn>)
    ensures KeepsInOrder(r, cs, InPoll(poll))
    ensures forall c :: multiset(r)[c] == if c.poll == poll then multiset(cs)[c] else 0
    ensures forall c :: c in r <==> c in cs && c.poll == poll
    ensures |r| <= |cs|
  {
    Filter(cs, InPoll(poll))
  }

  /** The set of candidates the options of an election poll name. */
  function CandidatesOf(options: seq<AssignmentOption>): set<Pk> {
    set o | o in options :: o.candidate
  }

  /** A vote of the poll that names one of the poll's candidates. */
  predicate IsValidVote(c: Conn, poll: int, cands: set<Pk>) {
    c.poll == poll && c.candidate.Some? && c.candidate.value in cands
  }

  /** Votes of the poll for candidate `cand`. */
  function CountCandidate(cs: seq<Conn>, poll: int, cand: Pk): nat {
    if |cs| == 0 then 0
    else
      var last := cs[|cs| - 1];
      CountCandidate(cs[..|cs| - 1], poll, cand) + (if last.poll == poll && last.candidate == Some(cand) then 1 else 0)
  }

  /** Votes of the poll that name one of `cands`. */
  function CountValid(cs: seq<Conn>, poll: int, cands: set<Pk>): nat {
    if |cs| == 0 then 0
    else CountValid(cs[..|cs| - 1], poll, cands) + (if IsValidVote(cs[|cs| - 1], poll, cands) then 1 else 0)
  }

  /** Votes of the poll that name no candidate or a candidate outside `cands`. */
  function CountInvalid(cs: seq<Conn>, poll: int, cands: set<Pk>): nat {
    if |cs| == 0 then 0
    else
      var last := cs[|cs| - 1];
      CountInvalid(cs[..|cs| - 1], poll, cands) + (if last.poll == poll && !IsValidVote(last, poll, cands) then 1 else 0)
  }

  /** The multi-candidate result of an election poll: one count per candidate, plus valid and invalid. */
  datatype ElectionTally = ElectionTally(votes: map<Pk, int>, valid: int, invalid: int)

  /** `t` is the result of counting the rows `cs` of poll `poll` against the poll's options. */
  ghost predicate IsTallyOf(t: ElectionTally, cs: seq<Conn>, poll: int, options: seq<AssignmentOption>) {
    && t.votes.Keys == CandidatesOf(options)
    && (forall c :: c in t.votes ==> t.votes[c] == CountCandidate(cs, poll, c))
    && t.valid == CountValid(cs, poll, CandidatesOf(options))
    && t.invalid == CountInvalid(cs, poll, CandidatesOf(options))
  }

  /**
   * The election count of `VotingResult`: every candidate of an option starts
   * at 0; each row of the poll adds one to its candidate and to `valid` when it
   * names a candidate of the options, and one to `invalid` otherwise.
   */
  method Tally(cs: seq<Conn>, poll: int, options: seq<AssignmentOption>) returns (t: ElectionTally)
    ensures IsTallyOf(t, cs, poll, options)
  {
    var votes: map<Pk, int> := map[];
    var k := 0;
    while k < |options|
      invariant 0 <= k <= |options|
      invariant votes.Keys == CandidatesOf(options[..k])
      invariant forall c :: c in votes ==> votes[c] == 0
    {
      assert options[..k + 1] == options[..k] + [options[k]];
      votes := votes[options[k].candidate := 0];
      k := k + 1;
    }
    assert options[..k] == options;
    var valid, invalid := 0, 0;
    var i := 0;
    while i < |cs|
      invariant 0 <= i <= |cs|
      invariant votes.Keys == CandidatesOf(options)
      invariant forall c :: c in votes ==> votes[c] == CountCandidate(cs[..i], poll, c)
      invariant valid == CountValid(cs[..i], poll, votes.Keys)
      invariant invalid == CountInvalid(cs[..i], poll, votes.Keys)
    {
      var conn := cs[i];
      assert cs[..i + 1][..i] == cs[..i];
      if conn.poll == poll {
        if conn.candidate.Some? && conn.candidate.value in votes {
          var c := conn.candidate.value;
          votes := votes[c := votes[c] + 1];
          valid := valid + 1;
        } else {
          invalid := invalid + 1;
        }
      }
      i := i + 1;
    }
    assert cs[..i] == cs;
    t := ElectionTally(votes, valid, invalid);
  }

  /** Every row of the poll is counted exactly once, as valid or as invalid. */
  lemma {:induction false} ValidPlusInvalid(cs: seq<Conn>, poll: int, cands: set<Pk>)
    ensures CountValid(cs, poll, cands) + CountInvalid(cs, poll, cands) == |OfPoll(cs, poll)|
  {
    if |cs| > 0 {
      ValidPlusInvalid(cs[..|cs| - 1], poll, cands);
    }
  }

  lemma {:induction false} CountValidEmpty(cs: seq<Conn>, poll: int)
    ensures CountValid(cs, poll, {}) == 0
  {
    if |cs| > 0 {
      CountValidEmpty(cs[..|cs| - 1], poll);
    }
  }

  lemma {:induction false} CountValidAdd(cs: seq<Conn>, poll: int, cands: set<Pk>, c: Pk)
    requires c !in cands
    ensures CountValid(cs, poll, cands + {c}) == CountValid(cs, poll, cands) + CountCandidate(cs, poll, c)
  {
    if |cs| > 0 {
      CountValidAdd(cs[..|cs| - 1], poll, cands, c);
    }
  }

  /** The options' candidates, in option order. */
  function CandidateSeq(options: seq<AssignmentOption>): (r: seq<Pk>)
    ensures |r| == |options|
    ensures forall j :: 0 <= j < |options| ==> r[j] == options[j].candidate
  {
    if |options| == 0 then [] else [options[0].candidate] + CandidateSeq(options[1..])
  }

  function SetOf(cl: seq<Pk>): set<Pk> {
    set c | c in cl
  }

  predicate Distinct(cl: seq<Pk>) {
    forall i, j :: 0 <= i < j < |cl| ==> cl[i] != cl[j]
  }

  /** The list without repetitions, in order of first appearance: the keys of a dict filled from it. */
  function Dedup(cl: seq<Pk>): (r: seq<Pk>)
    ensures Distinct(r) && SetOf(r) == SetOf(cl)
  {
    if |cl| == 0 then []
    else
      var init := cl[..|cl| - 1];
      var x := cl[|cl| - 1];
      var rest := Dedup(init);
      assert SetOf(cl) == SetOf(init) + {x} by {
        assert cl == init + [x];
      }
      if x in rest then rest else rest + [x]
  }

  /** The sum of the per-candidate counts of a tally, over a list of its candidates. */
  function SumVotes(votes: map<Pk, int>, cl: seq<Pk>): int
    requires forall j :: 0 <= j < |cl| ==> cl[j] in votes
  {
    if |cl| == 0 then 0 else votes[cl[0]] + SumVotes(votes, cl[1..])
  }

  lemma {:induction false} SumVotesIsValid(votes: map<Pk, int>, cs: seq<Conn>, poll: int, cl: seq<Pk>)
    requires Distinct(cl)
    requires forall j :: 0 <= j < |cl| ==> cl[j] in votes && votes[cl[j]] == CountCandidate(cs, poll, cl[j])
    ensures SumVotes(votes, cl) == CountValid(cs, poll, SetOf(cl))
  {
    if |cl| == 0 {
      assert SetOf(cl) == {};
      CountValidEmpty(cs, poll);
    } else {
      var rest := cl[1..];
      assert forall j :: 0 <= j < |rest| ==> rest[j] == cl[j + 1];
      SumVotesIsValid(votes, cs, poll, rest);
      assert cl[0] !in rest by {
        forall j | 0 <= j < |rest| ensures rest[j] != cl[0] {
          assert rest[j] == cl[j + 1];
        }
      }
      var restSet := SetOf(rest);
      assert SetOf(cl) == restSet + {cl[0]};
      CountValidAdd(cs, poll, restSet, cl[0]);
      assert SumVotes(votes, cl) == votes[cl[0]] + SumVotes(votes, rest);
      assert votes[cl[0]] == CountCandidate(cs, poll, cl[0]);
    }
  }

  lemma CandidateSeqSet(options: seq<AssignmentOption>)
    ensures SetOf(CandidateSeq(options)) == CandidatesOf(options)
  {
    var cl := CandidateSeq(options);
    forall c | c in CandidatesOf(options) ensures c in cl {
      var o :| o in options && o.candidate == c;
      var j :| 0 <= j < |options| && options[j] == o;
      assert cl[j] == c;
    }
    forall c | c in cl ensures c in CandidatesOf(options) {
      var j :| 0 <= j < |cl| && cl[j] == c;
      assert options[j] in options;
    }
  }

  /**
   * Conservation of an election count: valid plus invalid is the number of
   * rows of the poll, and the per-candidate counts, one per key of the
   * result, add up to `valid`; when every option names a different
   * candidate, that is the sum over the options.
   */
  lemma TallyConservation(t: ElectionTally, cs: seq<Conn>, poll: int, options: seq<AssignmentOption>)
    requires IsTallyOf(t, cs, poll, options)
    ensures t.valid + t.invalid == |OfPoll(cs, poll)|
    ensures var keys := Dedup(CandidateSeq(options));
      SetOf(keys) == t.votes.Keys && SumVotes(t.votes, keys) == t.valid
    ensures Distinct(CandidateSeq(options)) ==> SumVotes(t.votes, CandidateSeq(options)) == t.valid
  {
    ValidPlusInvalid(cs, poll, CandidatesOf(options));
    var cl := CandidateSeq(options);
    CandidateSeqSet(options);
    var keys := Dedup(cl);
    assert forall j :: 0 <= j < |keys| ==> keys[j] in SetOf(keys);
    SumVotesIsValid(t.votes, cs, poll, keys);
    if Distinct(cl) {
      SumVotesIsValid(t.votes, cs, poll, cl);
    }
  }

  /** A row of the poll without a candidate (the abstain key 0) adds one invalid vote and no valid vote. */
  lemma NoCandidateIsInvalid(cs: seq<Conn>, x: Conn, poll: int, cands: set<Pk>)
    requires x.poll == poll && x.candidate.None?
    ensures CountInvalid(cs + [x], poll, cands) == CountInvalid(cs, poll, cands) + 1
    ensures CountValid(cs + [x], poll, cands) == CountValid(cs, poll, cands)
  {
    assert (cs + [x])[..|cs|] == cs;
  }
}

=== FILE: keypad_import.dfy ===
/**
 * The keypad import of the browser client: every CSV row is cleaned of
 * enclosing quotes, matched against the participants, seats and keypads
 * already known, and annotated with its errors; the import then creates a
 * keypad for every row without an error.
 */
module KeypadImport {
  import opened Common
  import opened Text
  import opened Models

  /** The columns of one CSV row the import reads; an absent column is `undefined`. */
  datatype CsvRow = CsvRow(
    title: Option<string>,
    firstName: Option<string>,
    lastName: Option<string>,
    structureLevel: Option<string>,
    keypadId: Option<string>,
    seatLabel: Option<string>)

  /** The characters JavaScript's `.` in a regular expression does not match. */
  predicate IsLineTerminator(c: char) {
    c == '\n' || c == '\r' || c == '\U{2028}' || c == '\U{2029}'
  }

  predicate SingleLine(s: string) {
    forall i :: 0 <= i < |s| ==> !IsLineTerminator(s[i])
  }

  function Quoted(t: string): string {
    "\"" + t + "\""
  }

  /** `s.replace(/^"(.*)"$/, '$1')`: one pair of enclosing double quotes removed from a one-line field. */
  function StripQuotes(s: string): (r: string)
    ensures r == s || s == Quoted(r)
    ensures (|s| < 2 || s[0] != '"' || s[|s| - 1] != '"') ==> r == s
    ensures !SingleLine(s) ==> r == s
  {
    if 2 <= |s| && s[0] == '"' && s[|s| - 1] == '"' && SingleLine(s[1..|s| - 1]) then
      var r := s[1..|s| - 1];
      assert s == Quoted(r);
      assert !SingleLine(s) ==> !SingleLine(r);
      r
    else
      s
  }

  /** Quoting a one-line text and stripping the quotes gives the text back, even when it is quoted itself. */
  lemma StripQuotesRoundTrip(t: string)
    requires SingleLine(t)
    ensures StripQuotes(Quoted(t)) == t
  {
    var s := Quoted(t);
    assert s[1..|s| - 1] == t;
  }

  /** Only the outer pair goes: a doubly quoted field keeps its inner quotes. */
  lemma StripQuotesOnce()
    ensures StripQuotes("\"\"Dr.\"\"") == "\"Dr.\""
  {
    StripQuotesRoundTrip("\"Dr.\"");
  }

  /** A JavaScript truthiness test on a column: present and not the empty string. */
  predicate Truthy(f: Option<string>) {
    f.Some? && f.value != ""
  }

  /** `if (field) { field = field.replace(quotionRe, '$1'); }` */
  function StripField(f: Option<string>): (r: Option<string>)
    ensures r.Some? <==> f.Some?
    ensures r.Some? ==> r.value == StripQuotes(f.value)
  {
    if Truthy(f) then Some(StripQuotes(f.value)) else f
  }

  /** The row as the watcher leaves it: every column cleaned of its quotes. */
  function StripRow(row: CsvRow): CsvRow {
    CsvRow(StripField(row.title), StripField(row.firstName), StripField(row.lastName),
           StripField(row.structureLevel), StripField(row.keypadId), StripField(row.seatLabel))
  }

  /** `[title, first_name, last_name, structure_level].join(' ')`. */
  function JoinName(title: string, first: string, last: string, level: string): string {
    title + " " + first + " " + last + " " + level
  }

  /** The row's full name; `join` writes an absent column as the empty string. */
  function RowFullName(row: CsvRow): string {
    JoinName(row.title.GetOr(""), row.firstName.GetOr(""), row.lastName.GetOr(""), row.structureLevel.GetOr(""))
  }

  function UserFullName(u: User): string {
    JoinName(u.title, u.firstName, u.lastName, u.structureLevel)
  }

  /** A participant whose full name the row's full name equals. */
  predicate NameMatches(u: User, name: string) {
    UserFullName(u) == name
  }

  /** The id of the participant named `name`; with several, the last one in the directory. */
  function MatchUser(users: seq<User>, name: string): (r: Option<Pk>)
    ensures r.Some? <==> exists i :: 0 <= i < |users| && NameMatches(users[i], name)
    ensures r.Some? ==> exists i :: 0 <= i < |users| && NameMatches(users[i], name) && users[i].id == r.value
                                    && forall j :: i < j < |users| ==> !NameMatches(users[j], name)
  {
    if |users| == 0 then None
    else
      var last := users[|users| - 1];
      if NameMatches(last, name) then Some(last.id)
      else
        var r := MatchUser(users[..|users| - 1], name);
        assert forall i :: 0 <= i < |users| - 1 ==> users[..|users| - 1][i] == users[i];
        r
  }

  /** `seat.number == keypaduser.seat_label`; an absent seatLabel equals no seat number. */
  predicate SeatLabelled(s: Seat, seatLabel: Option<string>) {
    seatLabel == Some(s.number)
  }

  /** The id of the seat labelled `seatLabel`; with several, the last one. */
  function MatchSeat(seats: seq<Seat>, seatLabel: Option<string>): (r: Option<Pk>)
    ensures r.Some? <==> exists i :: 0 <= i < |seats| && SeatLabelled(seats[i], seatLabel)
    ensures r.Some? ==> exists i :: 0 <= i < |seats| && SeatLabelled(seats[i], seatLabel) && seats[i].id == r.value
                                    && forall j :: i < j < |seats| ==> !SeatLabelled(seats[j], seatLabel)
  {
    if |seats| == 0 then None
    else
      var last := seats[|seats| - 1];
      if SeatLabelled(last, seatLabel) then Some(last.id)
      else
        var r := MatchSeat(seats[..|seats| - 1], seatLabel);
        assert forall i :: 0 <= i < |seats| - 1 ==> seats[..|seats| - 1][i] == seats[i];
        r
  }

  /** Some keypad sits on the seat `id`. */
  function SeatInUse(keypads: seq<Keypad>, id: Pk): (b: bool)
    ensures b <==> exists j :: 0 <= j < |keypads| && keypads[j].seat == Some(id)
  {
    if |keypads| == 0 then false
    else keypads[|keypads| - 1].seat == Some(id) || SeatInUse(keypads[..|keypads| - 1], id)
  }

  /** Some seat labelled `seatLabel` already has a keypad. */
  function LabelTaken(seats: seq<Seat>, keypads: seq<Keypad>, seatLabel: Option<string>): (b: bool)
    ensures b <==> exists i, j :: 0 <= i < |seats| && 0 <= j < |keypads|
                                  && SeatLabelled(seats[i], seatLabel) && keypads[j].seat == Some(seats[i].id)
  {
    if |seats| == 0 then false
    else
      var last := seats[|seats| - 1];
      var rest := seats[..|seats| - 1];
      var b := (SeatLabelled(last, seatLabel) && SeatInUse(keypads, last.id)) || LabelTaken(rest, keypads, seatLabel);
      assert forall i :: 0 <= i < |rest| ==> rest[i] == seats[i];
      b
  }

  /** `keypad.keypad_id == keypaduser.keypad_id` for some known keypad, with JavaScript's loose equality. */
  function KeypadIdTaken(keypads: seq<Keypad>, id: Option<string>): (b: bool)
    ensures b <==> id.Some? && exists j :: 0 <= j < |keypads| && JsLooseEquals(keypads[j].keypadId, id.value)
  {
    id.Some? && AnyOf(keypads, (k: Keypad) => JsLooseEquals(k.keypadId, id.value))
  }

  datatype NameError = NameRequired | ParticipantNotFound
  datatype SeatError = SeatTaken | SeatMissing

  /** One line of the import preview: the cleaned row, what it matched and its errors. */
  datatype Preview = Preview(
    row: CsvRow,
    fullName: string,
    userId: Option<Pk>,
    seatId: Option<Pk>,
    nameError: Option<NameError>,
    seatError: Option<SeatError>,
    keypadError: bool,
    importError: bool)

  /** The name check: no participant of that name, or a participant but an empty name. */
  function NameCheck(users: seq<User>, name: string, r: CsvRow): (e: Option<NameError>)
    ensures e == Some(ParticipantNotFound) <==> MatchUser(users, name).None?
    ensures e == Some(NameRequired) <==> MatchUser(users, name).Some? && !Truthy(r.firstName) && !Truthy(r.lastName)
  {
    if MatchUser(users, name).None? then Some(ParticipantNotFound)
    else if !Truthy(r.firstName) && !Truthy(r.lastName) then Some(NameRequired)
    else None
  }

  /** The seat check: no seat with that label, or one whose seat already has a keypad. */
  function SeatCheck(seats: seq<Seat>, keypads: seq<Keypad>, seatLabel: Option<string>): (e: Option<SeatError>)
    ensures e == Some(SeatMissing) <==> MatchSeat(seats, seatLabel).None?
    ensures e == Some(SeatTaken) <==>
      exists i, j :: 0 <= i < |seats| && 0 <= j < |keypads|
                     && SeatLabelled(seats[i], seatLabel) && keypads[j].seat == Some(seats[i].id)
  {
    if MatchSeat(seats, seatLabel).None? then Some(SeatMissing)
    else if LabelTaken(seats, keypads, seatLabel) then Some(SeatTaken)
    else None
  }

  /**
   * What the preview line `p` reports about its (already cleaned) row. A later
   * message overwrites an earlier one: "participant not found" replaces "name
   * required", and a seat that does not exist cannot be taken.
   */
  ghost predicate Reports(p: Preview, users: seq<User>, seats: seq<Seat>, keypads: seq<Keypad>) {
    && p.fullName == RowFullName(p.row)
    && p.userId == MatchUser(users, p.fullName)
    && p.seatId == MatchSeat(seats, p.row.seatLabel)
    && (p.userId.Some? <==> exists i :: 0 <= i < |users| && NameMatches(users[i], p.fullName))
    && (p.seatId.Some? <==> exists i :: 0 <= i < |seats| && SeatLabelled(seats[i], p.row.seatLabel))
    && (p.nameError == Some(ParticipantNotFound) <==> p.userId.None?)
    && (p.nameError == Some(NameRequired) <==>
         p.userId.Some? && !Truthy(p.row.firstName) && !Truthy(p.row.lastName))
    && (p.seatError == Some(SeatMissing) <==> p.seatId.None?)
    && (p.seatError == Some(SeatTaken) <==>
         exists i, j :: 0 <= i < |seats| && 0 <= j < |keypads|
                        && SeatLabelled(seats[i], p.row.seatLabel) && keypads[j].seat == Some(seats[i].id))
    && (p.keypadError <==>
         p.row.keypadId.Some? && exists j :: 0 <= j < |keypads| && JsLooseEquals(keypads[j].keypadId, p.row.keypadId.value))
    && (p.importError <==> p.nameError.Some? || p.seatError.Some? || p.keypadError)
    && (!p.importError ==> p.userId.Some? && p.seatId.Some?)
  }

  /** The checks on a row whose quotes are already stripped. */
  function Annotate(r: CsvRow, users: seq<User>, seats: seq<Seat>, keypads: seq<Keypad>): (p: Preview)
    ensures p.row == r && Reports(p, users, seats, keypads)
  {
    var name := RowFullName(r);
    var userId := MatchUser(users, name);
    var seatId := MatchSeat(seats, r.seatLabel);
    var nameError := NameCheck(users, name, r);
    var seatError := SeatCheck(seats, keypads, r.seatLabel);
    var keypadError := KeypadIdTaken(keypads, r.keypadId);
    Preview(r, name, userId, seatId, nameError, seatError, keypadError,
            nameError.Some? || seatError.Some? || keypadError)
  }

  /** The watcher's checks on one row: its quotes are stripped, then it is annotated. */
  function Check(row: CsvRow, users: seq<User>, seats: seq<Seat>, keypads: seq<Keypad>): (p: Preview)
    ensures p.row == StripRow(row) && Reports(p, users, seats, keypads)
  {
    Annotate(StripRow(row), users, seats, keypads)
  }

  /** The watcher on `csv.result`: one preview line per row, in the file's order. */
  function Validate(rows: seq<CsvRow>, users: seq<User>, seats: seq<Seat>, keypads: seq<Keypad>): (ps: seq<Preview>)
    ensures |ps| == |rows|
    ensures forall i :: 0 <= i < |rows| ==> ps[i] == Check(rows[i], users, seats, keypads)
  {
    seq(|rows|, i requires 0 <= i < |rows| => Check(rows[i], users, seats, keypads))
  }

  /** The keypad `Keypad.create` is called with. */
  datatype KeypadCommand = KeypadCommand(keypadId: Option<string>, userId: Option<Pk>, seatId: Option<Pk>)

  function CommandOf(p: Preview): KeypadCommand {
    KeypadCommand(p.row.keypadId, p.userId, p.seatId)
  }

  /** A preview line without an import error. */
  predicate Clean(p: Preview) {
    !p.importError
  }

  /** `import`: a create call for every preview line without an import error, in order. */
  function ImportCommands(ps: seq<Preview>): (cs: seq<KeypadCommand>)
    ensures |cs| == |KeptIndices(ps, Clean)|
    ensures forall j :: 0 <= j < |cs| ==> cs[j] == CommandOf(ps[KeptIndices(ps, Clean)[j]])
  {
    var clean := Filter(ps, Clean);
    seq(|clean|, j requires 0 <= j < |clean| => CommandOf(clean[j]))
  }

  /** The number of rows without an import error. */
  function CleanRows(ps: seq<Preview>): nat {
    if |ps| == 0 then 0 else CleanRows(ps[..|ps| - 1]) + (if ps[|ps| - 1].importError then 0 else 1)
  }

  /** One create call per clean row, and each names a participant and a seat. */
  lemma {:induction false} ImportCreatesCleanRows(rows: seq<CsvRow>, users: seq<User>, seats: seq<Seat>, keypads: seq<Keypad>)
    ensures var cs := ImportCommands(Validate(rows, users, seats, keypads));
      |cs| == CleanRows(Validate(rows, users, seats, keypads))
      && forall c :: c in cs ==> c.userId.Some? && c.seatId.Some?
  {
    var ps := Validate(rows, users, seats, keypads);
    CleanRowsCount(ps);
    forall i | 0 <= i < |ps| && Clean(ps[i])
      ensures ps[i].userId.Some? && ps[i].seatId.Some?
    {
      assert Reports(ps[i], users, seats, keypads);
    }
    CommandsOfMatchedRows(ps);
  }

  /** When every clean line names a participant and a seat, so does every create call. */
  lemma CommandsOfMatchedRows(ps: seq<Preview>)
    requires forall i :: 0 <= i < |ps| && Clean(ps[i]) ==> ps[i].userId.Some? && ps[i].seatId.Some?
    ensures forall c :: c in ImportCommands(ps) ==> c.userId.Some? && c.seatId.Some?
  {
    var cs := ImportCommands(ps);
    var idx := KeptIndices(ps, Clean);
    forall c | c in cs ensures c.userId.Some? && c.seatId.Some? {
      var j :| 0 <= j < |cs| && cs[j] == c;
      assert Clean(ps[idx[j]]);
    }
  }

  lemma {:induction false} CleanRowsCount(ps: seq<Preview>)
    ensures |KeptIndices(ps, Clean)| == CleanRows(ps)
  {
    if |ps| > 0 {
      CleanRowsCount(ps[..|ps| - 1]);
    }
  }

  /** A row that passes every check against an empty keypad list: the precondition of `DuplicatesWithinFilePass` can be met. */
  lemma ExampleRowPasses(users: seq<User>, seats: seq<Seat>, row: CsvRow)
    requires users == [User(1, "", "Ada", "Lovelace", "")] && seats == [Seat(1, "A1")]
    requires row == CsvRow(None, Some("Ada"), Some("Lovelace"), None, Some("7"), Some("A1"))
    ensures Clean(Check(row, users, seats, []))
    ensures CommandOf(Check(row, users, seats, [])) == KeypadCommand(Some("7"), Some(1), Some(1))
  {
    assert StripRow(row) == row;
    assert NameMatches(users[0], RowFullName(row));
    assert SeatLabelled(seats[0], Some("A1"));
  }

  /**
   * The checks compare each row with the keypads and seats already stored,
   * never with the other rows: a clean row given twice in one file is
   * imported twice, with the same keypad id and seat.
   */
  lemma DuplicatesWithinFilePass(row: CsvRow, users: seq<User>, seats: seq<Seat>, keypads: seq<Keypad>)
    requires Clean(Check(row, users, seats, keypads))
    ensures var c := CommandOf(Check(row, users, seats, keypads));
      ImportCommands(Validate([row, row], users, seats, keypads)) == [c, c]
  {
    ImportTwoClean(Validate([row, row], users, seats, keypads));
  }

  lemma ImportTwoClean(ps: seq<Preview>)
    requires |ps| == 2 && Clean(ps[0]) && Clean(ps[1])
    ensures ImportCommands(ps) == [CommandOf(ps[0]), CommandOf(ps[1])]
  {
    assert ps[..1][..0] == [];
    assert KeptIndices(ps, Clean) == [0, 1];
  }
}

=== FILE: models.dfy ===
/**
 * The records the VoteCollector plugin keeps in the database, and a snapshot
 * `Db` of all of them that the server-side handlers read and write.
 */
module Models {
  import opened Common

  /**
   * The single VoteCollector row (id 1): whether a voting is running, for which
   * model ('Test', 'Item', 'MotionPoll' or 'AssignmentPoll') and which object,
   * how many keypads the device expects and how many votes it reported so far.
   */
  datatype VoteCollector = VoteCollector(
    isVoting: bool,
    votingMode: string,
    votingTarget: int,
    votersCount: int,
    votesReceived: int,
    votingDuration: int)

  /** A registered keypad: primary key, the number the device reports, its owner and its seat. */
  datatype Keypad = Keypad(pk: Pk, keypadId: int, user: Option<Pk>, seat: Option<Pk>)

  /** A participant, with the name fields the keypad import compares. */
  datatype User = User(id: Pk, title: string, firstName: string, lastName: string, structureLevel: string)

  /** A seat of the seating plan with its label (`number`). */
  datatype Seat = Seat(id: Pk, number: string)

  /**
   * One keypad's vote in one poll (a MotionPollKeypadConnection or an
   * AssignmentPollKeypadConnection). `keypad` is None once the poll's votes
   * were anonymized; `candidate` is only ever set for election votes.
   */
  datatype Conn = Conn(poll: int, keypad: Option<Pk>, serial: Option<string>, value: string, candidate: Option<Pk>)

  /** An entry of an agenda item's list of speakers; a waiting speaker has neither begun nor ended. */
  datatype Speaker = Speaker(item: int, user: Pk, begun: bool, ended: bool)

  /** The totals of a poll as the OpenSlides core stores them. */
  datatype PollTotals = PollTotals(hasVotes: bool, votesCast: Option<int>, votesValid: Option<int>, votesInvalid: Option<int>)

  /** One ballot option of an election poll, naming a candidate. */
  datatype AssignmentOption = AssignmentOption(id: Pk, candidate: Pk)

  /**
   * An election poll: its totals, its options ordered by id, its voting method
   * flags and the number of candidates (`related_users`) of its election.
   */
  datatype AssignmentPoll = AssignmentPoll(
    totals: PollTotals,
    options: seq<AssignmentOption>,
    yesNoAbstain: bool,
    yesNo: bool,
    relatedUsers: nat)

  /** The database as the handlers see it during one request. */
  datatype Db = Db(
    vc: VoteCollector,
    motionPolls: map<int, PollTotals>,
    assignmentPolls: map<int, AssignmentPoll>,
    items: set<int>,
    keypads: seq<Keypad>,
    motionConns: seq<Conn>,
    assignmentConns: seq<Conn>,
    speakers: seq<Speaker>)

  /** The models a voting can be started for, and the names the VoteCollector row stores. */
  datatype ModelName = MotionPollModel | AssignmentPollModel | ItemModel {
    function Name(): string {
      match this
      case MotionPollModel => "MotionPoll"
      case AssignmentPollModel => "AssignmentPoll"
      case ItemModel => "Item"
    }
  }

  /** The first element of `xs` whose key is `k`; keys of a table's unique column make it the only one. */
  function FindBy<T>(xs: seq<T>, key: T -> int, k: int): (r: Option<T>)
    ensures r.Some? ==> r.value in xs && key(r.value) == k
    ensures r.None? <==> forall i :: 0 <= i < |xs| ==> key(xs[i]) != k
  {
    if |xs| == 0 then None
    else if key(xs[0]) == k then Some(xs[0])
    else FindBy(xs[1..], key, k)
  }

  /** `Keypad.objects.get(keypad_id=n)`: the keypad the device number `n` belongs to. */
  function FindKeypad(ks: seq<Keypad>, n: int): (r: Option<Keypad>)
    ensures r.Some? ==> r.value in ks && r.value.keypadId == n
    ensures r.None? <==> forall i :: 0 <= i < |ks| ==> ks[i].keypadId != n
  {
    FindBy(ks, (k: Keypad) => k.keypadId, n)
  }

  /** `Keypad.get(pk)` in the browser's data store. */
  function KeypadByPk(ks: seq<Keypad>, pk: Pk): (r: Option<Keypad>)
    ensures r.Some? ==> r.value in ks && r.value.pk == pk
    ensures r.None? <==> forall i :: 0 <= i < |ks| ==> ks[i].pk != pk
  {
    FindBy(ks, (k: Keypad) => k.pk as int, pk)
  }

  /** `User.get(id)` in the browser's data store. */
  function UserById(us: seq<User>, id: Pk): (r: Option<User>)
    ensures r.Some? ==> r.value in us && r.value.id == id
    ensures r.None? <==> forall i :: 0 <= i < |us| ==> us[i].id != id
  {
    FindBy(us, (u: User) => u.id as int, id)
  }

  /** `Seat.get(id)` in the browser's data store. */
  function SeatById(seats: seq<Seat>, id: Pk): (r: Option<Seat>)
    ensures r.Some? ==> r.value in seats && r.value.id == id
    ensures r.None? <==> forall i :: 0 <= i < |seats| ==> seats[i].id != id
  {
    FindBy(seats, (s: Seat) => s.id as int, id)
  }
}

=== FILE: session.dfy ===
/**
 * The voting session views: starting a voting, stopping it and fetching its
 * result. Each view reads and writes the VoteCollector row and talks to the
 * device; the device replies are inputs of the model.
 */
module Session {
  import opened Common
  import opened Text
  import opened Models
  import opened Connections

  /** The URL keywords naming the object of a voting (`app`, `model`, `id`), or none of them. */
  datatype PollArgs = NoArgs | Args(model: ModelName, id: int)

  /** The result of `get_poll_object`: no object asked for, the object found, or an unknown id. */
  datatype Lookup = NoObject | Found(id: int) | UnknownId

  /** Whether the table of `model` has a row with this id. */
  predicate Exists(db: Db, model: ModelName, id: int) {
    match model
    case MotionPollModel => id in db.motionPolls
    case AssignmentPollModel => id in db.assignmentPolls
    case ItemModel => id in db.items
  }

  function GetPollObject(db: Db, args: PollArgs): (r: Lookup)
    ensures r.NoObject? <==> args.NoArgs?
    ensures r.UnknownId? <==> args.Args? && !Exists(db, args.model, args.id)
    ensures r.Found? ==> args.Args? && r.id == args.id && Exists(db, args.model, args.id)
  {
    match args
    case NoArgs => NoObject
    case Args(model, id) => if Exists(db, model, id) then Found(id) else UnknownId
  }

  /** The errors a view reports in its `error` field. */
  datatype ViewError = UnknownIdError | AnotherVotingActive | DeviceError(msg: string) {
    function Text(): string {
      match this
      case UnknownIdError => "Unknown id."
      case AnotherVotingActive => "Another voting is active."
      case DeviceError(msg) => msg
    }
  }

  /** The start views: system test (ping), yes/no/abstain poll, election, list of speakers. */
  datatype StartKind = PingStart | YesNoAbstainStart | ElectionStart | SpeakerListStart

  /** A start request: the view, its object, the device mode and options, and the callback resource. */
  datatype StartRequest = StartRequest(kind: StartKind, args: PollArgs, deviceMode: string, options: Option<string>, resource: string)

  /** The pairing of start views and models that the URL configuration provides. */
  predicate WellFormed(req: StartRequest) {
    match req.kind
    case PingStart => req.args.NoArgs?
    case YesNoAbstainStart => req.args.Args? && req.args.model != ItemModel
    case ElectionStart => req.args.Args? && req.args.model == AssignmentPollModel
    case SpeakerListStart => req.args.Args? && req.args.model == ItemModel
  }

  /** The device requests a view issues, in order. */
  datatype DeviceCall = StopCall | StartCall(mode: string, options: Option<string>, url: string)

  /**
   * The answer of a start view. A device error with an empty message is no
   * error to `if self.error:`, so the view goes on to read the count it never
   * received and fails with HTTP 500 (`StartServerError`).
   */
  datatype StartResponse = Started(count: int) | StartFailed(error: ViewError) | StartServerError

  datatype StartOutcome = StartOutcome(db: Db, calls: seq<DeviceCall>, response: StartResponse)

  /** `kwargs.get('model', 'Test')`: the mode name a started voting records. */
  function VotingMode(args: PollArgs): (m: string)
    ensures args.NoArgs? <==> m == "Test"
    ensures args.Args? ==> m == args.model.Name() && m != "Test"
  {
    match args
    case NoArgs => "Test"
    case Args(model, _) => model.Name()
  }

  /** `obj.id if obj else 0`. */
  function TargetOf(l: Lookup): int {
    if l.Found? then l.id else 0
  }

  /** The URL the device posts votes to: the callback base, the resource and, for a real target, its id. */
  function CallbackUrl(base: string, resource: string, target: int): (url: string)
    ensures target == 0 ==> url == base + resource
    ensures target != 0 ==>
      |base + resource| < |url| && url[..|base + resource|] == base + resource
      && PyInt(url[|base + resource|..]) == Some(target)
  {
    if target != 0 then
      var url := base + resource + DecimalString(target);
      assert url[|base + resource|..] == DecimalString(target);
      PyIntDecimal(target);
      url
    else
      base + resource
  }

  /** `clear_votes`: a poll with votes loses them and its three totals; a poll without votes is left alone. */
  function ClearVotes(t: PollTotals): (r: PollTotals)
    ensures !r.hasVotes
    ensures t.hasVotes ==> r.votesCast.None? && r.votesValid.None? && r.votesInvalid.None?
    ensures !t.hasVotes ==> r == t
  {
    if t.hasVotes then PollTotals(false, None, None, None) else t
  }

  lemma ClearVotesIdempotent(t: PollTotals)
    ensures ClearVotes(ClearVotes(t)) == ClearVotes(t)
  {
  }

  /** Clears the votes and the keypad connections of an election poll. */
  function ResetAssignmentPoll(db: Db, id: int): (r: Db)
    requires id in db.assignmentPolls
  {
    var p := db.assignmentPolls[id];
    db.(assignmentPolls := db.assignmentPolls[id := p.(totals := ClearVotes(p.totals))],
        assignmentConns := DeletePoll(db.assignmentConns, id))
  }

  /** A start that clears its poll: yes/no/abstain or election. */
  predicate ClearsPoll(kind: StartKind) {
    kind.YesNoAbstainStart? || kind.ElectionStart?
  }

  /**
   * What `on_start` may change: a ping or a speakers' voting changes no
   * table; a yes/no/abstain or election start clears the started poll's
   * totals and drops its keypad rows, keeping every other poll and row, in
   * order. The VoteCollector row is not part of this comparison.
   */
  ghost predicate StartResets(db: Db, r: Db, req: StartRequest, target: int)
    requires WellFormed(req)
    requires req.args.Args? ==> Exists(db, req.args.model, target)
  {
    && r.keypads == db.keypads && r.speakers == db.speakers && r.items == db.items
    && (!ClearsPoll(req.kind) ==> r == db.(vc := r.vc))
    && (ClearsPoll(req.kind) && req.args.model == MotionPollModel ==>
          && r.assignmentPolls == db.assignmentPolls && r.assignmentConns == db.assignmentConns
          && r.motionPolls.Keys == db.motionPolls.Keys
          && (forall id :: id in db.motionPolls && id != target ==> r.motionPolls[id] == db.motionPolls[id])
          && r.motionPolls[target] == ClearVotes(db.motionPolls[target])
          && KeepsInOrder(r.motionConns, db.motionConns, NotInPoll(target)))
    && (ClearsPoll(req.kind) && req.args.model == AssignmentPollModel ==>
          && r.motionPolls == db.motionPolls && r.motionConns == db.motionConns
          && r.assignmentPolls.Keys == db.assignmentPolls.Keys
          && (forall id :: id in db.assignmentPolls && id != target ==> r.assignmentPolls[id] == db.assignmentPolls[id])
          && r.assignmentPolls[target] == db.assignmentPolls[target].(totals := ClearVotes(db.assignmentPolls[target].totals))
          && KeepsInOrder(r.assignmentConns, db.assignmentConns, NotInPoll(target)))
  }

  /**
   * `on_start` of the start views after the device accepted: a yes/no/abstain
   * or election start clears the poll's votes and deletes its keypad
   * connections; the base class's `on_start` (ping, list of speakers) does
   * nothing to the tables. The projector prompt and the ping's keypad reset
   * are not part of this model.
   */
  function OnStart(db: Db, req: StartRequest, target: int): (r: Db)
    requires WellFormed(req)
    requires req.args.Args? ==> Exists(db, req.args.model, target)
    ensures r.vc == db.vc
    ensures StartResets(db, r, req, target)
  {
    match req.kind
    case YesNoAbstainStart =>
      if req.args.model == MotionPollModel then
        db.(motionPolls := db.motionPolls[target := ClearVotes(db.motionPolls[target])],
            motionConns := DeletePoll(db.motionConns, target))
      else
        ResetAssignmentPoll(db, target)
    case ElectionStart => ResetAssignmentPoll(db, target)
    case _ => db
  }

  /**
   * `StartVoting.get`. An unknown object id is reported and nothing happens.
   * Otherwise a running voting of any mode is stopped first (the device's
   * answer to that stop is ignored), then the device is asked to start; only
   * if it accepts is the VoteCollector row written and `on_start` run.
   */
  function StartVoting(db: Db, req: StartRequest, callbackBase: string,
                       stopReply: DeviceReply<()>, startReply: DeviceReply<int>): (out: StartOutcome)
    requires WellFormed(req)
    ensures GetPollObject(db, req.args).UnknownId? ==> out == StartOutcome(db, [], StartFailed(UnknownIdError))
    ensures !GetPollObject(db, req.args).UnknownId? ==>
      var target := TargetOf(GetPollObject(db, req.args));
      && out.calls == (if db.vc.isVoting then [StopCall] else [])
                      + [StartCall(req.deviceMode, req.options, CallbackUrl(callbackBase, req.resource, target))]
      && (startReply.Err? ==> out.db == db)
      && (startReply.Err? && startReply.msg != "" ==> out.response == StartFailed(DeviceError(startReply.msg)))
      && (startReply.Err? && startReply.msg == "" ==> out.response == StartServerError)
      && (startReply.Ok? ==>
            out.response == Started(startReply.value)
            && out.db.vc == VoteCollector(true, VotingMode(req.args), target, startReply.value, 0, db.vc.votingDuration)
            && StartResets(db, out.db, req, target))
    ensures out.db.keypads == db.keypads && out.db.speakers == db.speakers && out.db.items == db.items
    ensures out.db.motionPolls.Keys == db.motionPolls.Keys && out.db.assignmentPolls.Keys == db.assignmentPolls.Keys
  {
    var obj := GetPollObject(db, req.args);
    if obj.UnknownId? then
      StartOutcome(db, [], StartFailed(UnknownIdError))
    else
      var stops := if db.vc.isVoting then [StopCall] else [];
      var target := TargetOf(obj);
      var calls := stops + [StartCall(req.deviceMode, req.options, CallbackUrl(callbackBase, req.resource, target))];
      match startReply
      case Err(msg) => StartOutcome(db, calls, if msg == "" then StartServerError else StartFailed(DeviceError(msg)))
      case Ok(count) =>
        var vc := VoteCollector(true, VotingMode(req.args), target, count, 0, db.vc.votingDuration);
        StartOutcome(OnStart(db.(vc := vc), req, target), calls, Started(count))
  }

  /**
   * A successful yes/no/abstain or election start leaves no keypad connection
   * of the started poll, keeps every other poll's connections and clears the
   * poll's totals.
   */
  lemma StartClearsPoll(db: Db, req: StartRequest, callbackBase: string, stopReply: DeviceReply<()>, startReply: DeviceReply<int>)
    requires WellFormed(req) && (req.kind.YesNoAbstainStart? || req.kind.ElectionStart?)
    requires Exists(db, req.args.model, req.args.id) && startReply.Ok?
    ensures var out := StartVoting(db, req, callbackBase, stopReply, startReply);
      var id := req.args.id;
      if req.args.model == MotionPollModel then
        && (forall c :: c in out.db.motionConns ==> c.poll != id)
        && KeepsInOrder(out.db.motionConns, db.motionConns, NotInPoll(id))
        && (forall c: Conn :: c.poll != id ==> multiset(out.db.motionConns)[c] == multiset(db.motionConns)[c])
        && out.db.assignmentConns == db.assignmentConns
        && !out.db.motionPolls[id].hasVotes
      else
        && (forall c :: c in out.db.assignmentConns ==> c.poll != id)
        && KeepsInOrder(out.db.assignmentConns, db.assignmentConns, NotInPoll(id))
        && (forall c: Conn :: c.poll != id ==> multiset(out.db.assignmentConns)[c] == multiset(db.assignmentConns)[c])
        && out.db.motionConns == db.motionConns
        && !out.db.assignmentPolls[id].totals.hasVotes
  {
  }

  /**
   * Start never refuses because a voting is running: whether the VoteCollector
   * row says a voting is active changes only the device calls (a stop comes
   * first), never the response, and a successful start writes the same row.
   */
  lemma StartIgnoresActiveVoting(db: Db, req: StartRequest, callbackBase: string,
                                 stopReply: DeviceReply<()>, startReply: DeviceReply<int>, active: bool)
    requires WellFormed(req)
    ensures var a := StartVoting(db.(vc := db.vc.(isVoting := active)), req, callbackBase, stopReply, startReply);
      var b := StartVoting(db, req, callbackBase, stopReply, startReply);
      a.response == b.response && (b.response.Started? ==> a.db == b.db)
  {
  }

  /** The device's answer to the preliminary stop has no effect on the outcome of a start. */
  lemma StartIgnoresStopReply(db: Db, req: StartRequest, callbackBase: string,
                              stop1: DeviceReply<()>, stop2: DeviceReply<()>, startReply: DeviceReply<int>)
    requires WellFormed(req)
    ensures StartVoting(db, req, callbackBase, stop1, startReply) == StartVoting(db, req, callbackBase, stop2, startReply)
  {
  }

  datatype StopResponse = Stopped | StopFailed(error: ViewError)

  datatype StopOutcome = StopOutcome(db: Db, calls: seq<DeviceCall>, response: StopResponse)

  /**
   * `StopVoting.get`: asks the device to stop and marks the VoteCollector row
   * as not voting, whether or not the device accepted. Mode, target and
   * counts stay as they were. A device error with an empty message is no
   * error to `if self.error:` and answers like a successful stop.
   */
  function StopVoting(db: Db, stopReply: DeviceReply<()>): (out: StopOutcome)
    ensures !out.db.vc.isVoting
    ensures out.db.vc.votingMode == db.vc.votingMode && out.db.vc.votingTarget == db.vc.votingTarget
    ensures out.db.vc.votersCount == db.vc.votersCount && out.db.vc.votesReceived == db.vc.votesReceived
    ensures out.db.vc.votingDuration == db.vc.votingDuration
    ensures out.db == db.(vc := out.db.vc)
    ensures out.calls == [StopCall]
    ensures out.response.StopFailed? <==> stopReply.Err? && stopReply.msg != ""
    ensures out.response.StopFailed? ==> out.response.error == DeviceError(stopReply.msg)
  {
    var db' := db.(vc := db.vc.(isVoting := false));
    match stopReply
    case Ok(_) => StopOutcome(db', [StopCall], Stopped)
    case Err(msg) => StopOutcome(db', [StopCall], if msg == "" then Stopped else StopFailed(DeviceError(msg)))
  }

  /** Stopping twice leaves the database as stopping once. */
  lemma StopIdempotent(db: Db, r1: DeviceReply<()>, r2: DeviceReply<()>)
    ensures StopVoting(StopVoting(db, r1).db, r2).db == StopVoting(db, r1).db
  {
  }

  /**
   * The result the result views return: the device's three counts, an
   * election count, an error, or HTTP 500 when the device fails with an empty
   * message (the view then reads a result it never received).
   */
  datatype ResultResponse = YesNoAbstainVotes(votes: seq<int>) | ElectionVotes(tally: ElectionTally) | ResultFailed(error: ViewError) | ResultServerError
  {
    /** A result the browser reads: counts, not an error message or a failed request. */
    predicate Delivered() {
      YesNoAbstainVotes? || ElectionVotes?
    }
  }

  /** The VoteCollector row names exactly this model and object. */
  predicate IsCurrent(vc: VoteCollector, model: ModelName, id: int) {
    vc.votingMode == model.Name() && vc.votingTarget == id
  }

  /** An election poll that is neither yes/no/abstain nor yes/no: its result is counted on the server. */
  predicate CountedOnServer(db: Db, model: ModelName, id: int) {
    model == AssignmentPollModel && id in db.assignmentPolls
    && !db.assignmentPolls[id].yesNoAbstain && !db.assignmentPolls[id].yesNo
  }

  /**
   * `VotingResult.get`: for the poll the VoteCollector row names, the election
   * count of its keypad connections or the device's result; for any other
   * object 'Another voting is active.'.
   */
  method VotingResult(db: Db, model: ModelName, id: int, deviceResult: DeviceReply<seq<int>>) returns (r: ResultResponse)
    ensures r == ResultFailed(UnknownIdError) <==> !Exists(db, model, id)
    ensures r == ResultFailed(AnotherVotingActive) <==> Exists(db, model, id) && !IsCurrent(db.vc, model, id)
    ensures r.ElectionVotes? <==> Exists(db, model, id) && IsCurrent(db.vc, model, id) && CountedOnServer(db, model, id)
    ensures r.ElectionVotes? ==>
      && IsTallyOf(r.tally, db.assignmentConns, id, db.assignmentPolls[id].options)
      && r.tally.valid + r.tally.invalid == |OfPoll(db.assignmentConns, id)|
    ensures Exists(db, model, id) && IsCurrent(db.vc, model, id) && !CountedOnServer(db, model, id) ==>
      r == (match deviceResult
            case Ok(votes) => YesNoAbstainVotes(votes)
            case Err(msg) => if msg == "" then ResultServerError else ResultFailed(DeviceError(msg)))
  {
    var obj := GetPollObject(db, Args(model, id));
    if obj.UnknownId? {
      return ResultFailed(UnknownIdError);
    }
    if !(db.vc.votingMode == model.Name() && db.vc.votingTarget == id) {
      return ResultFailed(AnotherVotingActive);
    }
    if db.vc.votingMode == "AssignmentPoll" && !db.assignmentPolls[id].yesNoAbstain && !db.assignmentPolls[id].yesNo {
      var options := db.assignmentPolls[id].options;
      var t := Tally(db.assignmentConns, db.vc.votingTarget, options);
      TallyConservation(t, db.assignmentConns, id, options);
      return ElectionVotes(t);
    }
    match deviceResult
    case Ok(votes) => r := YesNoAbstainVotes(votes);
    case Err(msg) => r := if msg == "" then ResultServerError else ResultFailed(DeviceError(msg));
  }
}

=== FILE: text.dfy ===
/**
 * Decimal text: how the server prints and parses integers (Python `str` and
 * `int`) and how the browser compares a number with a string (JavaScript `==`).
 */
module Text {
  import opened Common

  predicate IsDigit(c: char) {
    '0' <= c <= '9'
  }

  function DigitValue(c: char): nat
    requires IsDigit(c)
  {
    c as int - '0' as int
  }

  function DigitChar(d: nat): (c: char)
    requires d < 10
    ensures IsDigit(c) && DigitValue(c) == d
  {
    ('0' as int + d) as char
  }

  predicate AllDigits(s: string) {
    forall i :: 0 <= i < |s| ==> IsDigit(s[i])
  }

  /** The value of a string of decimal digits, most significant digit first. */
  function DigitsValue(s: string): nat
    requires AllDigits(s)
  {
    if |s| == 0 then 0 else 10 * DigitsValue(s[..|s| - 1]) + DigitValue(s[|s| - 1])
  }

  /** The shortest decimal digit string of `n`. */
  function NatDigits(n: nat): (s: string)
    ensures 1 <= |s| && AllDigits(s)
    ensures 1 < |s| ==> s[0] != '0'
  {
    if n < 10 then [DigitChar(n)] else NatDigits(n / 10) + [DigitChar(n % 10)]
  }

  /** `str(n)` in Python, `String(n)` or `'' + n` in JavaScript, for an integer `n`. */
  function DecimalString(n: int): (s: string)
    ensures 1 <= |s| && IsDigit(s[|s| - 1])
    ensures s[0] == '-' <==> n < 0
    ensures n >= 0 ==> AllDigits(s)
    ensures AllDigits(s[1..])
  {
    if n < 0 then "-" + NatDigits(-n) else NatDigits(n)
  }

  lemma {:induction false} NatDigitsValue(n: nat)
    ensures DigitsValue(NatDigits(n)) == n
  {
    if n >= 10 {
      NatDigitsValue(n / 10);
      var s := NatDigits(n);
      assert s[..|s| - 1] == NatDigits(n / 10);
    }
  }

  /**
   * The characters `int()` strips around its argument: among ASCII only tab
   * to carriage return and space (the separators U+001C to U+001F are
   * `str.isspace` but make `int()` fail), and every non-ASCII character
   * `str.isspace` accepts.
   */
  predicate PySpace(c: char) {
    var k := c as int;
    (9 <= k <= 13) || k == 0x20 || k == 0x85 || k == 0xA0 || k == 0x1680
    || (0x2000 <= k <= 0x200A) || k == 0x2028 || k == 0x2029 || k == 0x202F
    || k == 0x205F || k == 0x3000
  }

  /** ECMAScript StrWhiteSpaceChar (WhiteSpace and LineTerminator), stripped by ToNumber. */
  predicate JsSpace(c: char) {
    var k := c as int;
    (9 <= k <= 13) || k == 0x20 || k == 0xA0 || k == 0x1680 || (0x2000 <= k <= 0x200A)
    || k == 0x2028 || k == 0x2029 || k == 0x202F || k == 0x205F || k == 0x3000 || k == 0xFEFF
  }

  function TrimStart(s: string, isSpace: char -> bool): (r: string)
    ensures |r| <= |s| && r == s[|s| - |r|..]
    ensures |r| > 0 ==> !isSpace(r[0])
    ensures forall i :: 0 <= i < |s| - |r| ==> isSpace(s[i])
  {
    if |s| > 0 && isSpace(s[0]) then
      var r := TrimStart(s[1..], isSpace);
      assert forall i :: 1 <= i < |s| - |r| ==> s[i] == s[1..][i - 1];
      r
    else
      s
  }

  function TrimEnd(s: string, isSpace: char -> bool): (r: string)
    ensures |r| <= |s| && r == s[..|r|]
    ensures |r| > 0 ==> !isSpace(r[|r| - 1])
    ensures forall i :: |r| <= i < |s| ==> isSpace(s[i])
  {
    if |s| > 0 && isSpace(s[|s| - 1]) then TrimEnd(s[..|s| - 1], isSpace) else s
  }

  /** `s` without leading and trailing characters satisfying `isSpace`. */
  function Trim(s: string, isSpace: char -> bool): (r: string)
    ensures |r| > 0 ==> !isSpace(r[0]) && !isSpace(r[|r| - 1])
  {
    TrimEnd(TrimStart(s, isSpace), isSpace)
  }

  lemma TrimUnchanged(s: string, isSpace: char -> bool)
    requires |s| > 0 ==> !isSpace(s[0]) && !isSpace(s[|s| - 1])
    ensures Trim(s, isSpace) == s
  {
    assert TrimStart(s, isSpace) == s;
  }

  /** An optional sign followed by one or more decimal digits, and nothing else. */
  function SignedDigits(t: string): (r: Option<int>)
    ensures r.Some? <==> (|t| > 0 && AllDigits(t)) || (|t| > 1 && (t[0] == '-' || t[0] == '+') && AllDigits(t[1..]))
    ensures r.Some? && AllDigits(t) ==> r.value == DigitsValue(t)
    ensures r.Some? && t[0] == '+' ==> r.value == DigitsValue(t[1..])
    ensures r.Some? && t[0] == '-' ==> r.value == 0 - DigitsValue(t[1..])
  {
    if |t| > 1 && (t[0] == '-' || t[0] == '+') && AllDigits(t[1..]) then
      Some(if t[0] == '-' then 0 - DigitsValue(t[1..]) else DigitsValue(t[1..]) as int)
    else if |t| > 0 && AllDigits(t) then
      Some(DigitsValue(t))
    else
      None
  }

  /**
   * Python's `int(s)` on a string: `Some(n)` where the call returns `n`,
   * `None` where it raises `ValueError`.
   */
  function PyInt(s: string): (r: Option<int>)
    ensures |s| > 0 && !PySpace(s[0]) && !PySpace(s[|s| - 1]) ==> r == SignedDigits(s)
    ensures (forall i :: 0 <= i < |s| ==> PySpace(s[i])) ==> r.None?
  {
    SignedDigits(Trim(s, PySpace))
  }

  predicate AllSpace(s: string, isSpace: char -> bool) {
    forall i :: 0 <= i < |s| ==> isSpace(s[i])
  }

  lemma {:induction false} TrimStartSkips(p: string, x: string, isSpace: char -> bool)
    requires AllSpace(p, isSpace)
    ensures TrimStart(p + x, isSpace) == TrimStart(x, isSpace)
  {
    if |p| > 0 {
      assert (p + x)[0] == p[0] && isSpace(p[0]);
      assert (p + x)[1..] == p[1..] + x;
      assert AllSpace(p[1..], isSpace) by {
        assert forall i :: 0 <= i < |p| - 1 ==> p[1..][i] == p[i + 1];
      }
      TrimStartSkips(p[1..], x, isSpace);
    } else {
      assert p + x == x;
    }
  }

  lemma {:induction false} TrimStartAppend(s: string, q: string, isSpace: char -> bool)
    ensures TrimStart(s, isSpace) != "" ==> TrimStart(s + q, isSpace) == TrimStart(s, isSpace) + q
    ensures TrimStart(s, isSpace) == "" ==> TrimStart(s + q, isSpace) == TrimStart(q, isSpace)
  {
    if |s| == 0 {
      assert s + q == q;
    } else if isSpace(s[0]) {
      assert (s + q)[1..] == s[1..] + q;
      TrimStartAppend(s[1..], q, isSpace);
    }
  }

  lemma {:induction false} TrimEndSkips(x: string, q: string, isSpace: char -> bool)
    requires AllSpace(q, isSpace)
    ensures TrimEnd(x + q, isSpace) == TrimEnd(x, isSpace)
  {
    if |q| == 0 {
      assert x + q == x;
    } else {
      assert (x + q)[..|x + q| - 1] == x + q[..|q| - 1];
      TrimEndSkips(x, q[..|q| - 1], isSpace);
    }
  }

  /** Trimming ignores blanks added at either end. */
  lemma TrimIgnoresBlanks(p: string, s: string, q: string, isSpace: char -> bool)
    requires AllSpace(p, isSpace) && AllSpace(q, isSpace)
    ensures Trim(p + s + q, isSpace) == Trim(s, isSpace)
  {
    assert p + s + q == p + (s + q);
    TrimStartSkips(p, s + q, isSpace);
    TrimStartAppend(s, q, isSpace);
    if TrimStart(s, isSpace) != "" {
      TrimEndSkips(TrimStart(s, isSpace), q, isSpace);
    } else {
      var t := TrimStart(q, isSpace);
      assert t == "";
    }
  }

  /** `int()` ignores surrounding whitespace: blanks around the text never change its value or its failure. */
  lemma PyIntIgnoresBlanks(p: string, s: string, q: string)
    requires AllSpace(p, PySpace) && AllSpace(q, PySpace)
    ensures PyInt(p + s + q) == PyInt(s)
  {
    TrimIgnoresBlanks(p, s, q, PySpace);
  }

  /** The ASCII separators U+001C to U+001F are not blanks to `int()`: a text starting with one is rejected. */
  lemma SeparatorFailsInt(c: char, d: string)
    requires 0x1C <= c as int <= 0x1F
    ensures PyInt([c] + d) == None
  {
    var s := [c] + d;
    assert TrimStart(s, PySpace) == s;
    var t := Trim(s, PySpace);
    assert |t| > 0 && t[0] == c;
    assert !AllDigits(t);
  }

  /**
   * JavaScript's ToNumber on a string, restricted to the integers: `Some(n)`
   * when the string denotes the integer `n` (a blank string denotes 0).
   */
  function JsIntValue(s: string): (r: Option<int>)
    ensures (forall i :: 0 <= i < |s| ==> JsSpace(s[i])) ==> r == Some(0)
  {
    var t := Trim(s, JsSpace);
    if |t| == 0 then Some(0) else SignedDigits(t)
  }

  /** JavaScript `n == s` between a number holding the integer `n` and a string `s`. */
  predicate JsLooseEquals(n: int, s: string) {
    JsIntValue(s) == Some(n)
  }

  /** A minus sign followed by digits reads as the negated digits. */
  lemma SignedDigitsNegative(t: string)
    requires |t| > 0 && AllDigits(t)
    ensures SignedDigits("-" + t) == Some(0 - DigitsValue(t))
  {
    assert ("-" + t)[1..] == t;
  }

  lemma SignedDigitsDecimal(n: int)
    ensures SignedDigits(DecimalString(n)) == Some(n)
  {
    if n < 0 {
      NatDigitsValue(-n);
      assert DecimalString(n) == "-" + NatDigits(-n);
      SignedDigitsNegative(NatDigits(-n));
    } else {
      NatDigitsValue(n);
    }
  }

  /** `int(str(n)) == n`: the server reads back every integer it prints. */
  lemma PyIntDecimal(n: int)
    ensures PyInt(DecimalString(n)) == Some(n)
  {
    var s := DecimalString(n);
    assert !PySpace(s[0]) && !PySpace(s[|s| - 1]);
    TrimUnchanged(s, PySpace);
    SignedDigitsDecimal(n);
  }

  /** `n == String(n)` holds in JavaScript for every integer `n`. */
  lemma JsLooseEqualsDecimal(n: int)
    ensures JsLooseEquals(n, DecimalString(n))
  {
    var s := DecimalString(n);
    assert !JsSpace(s[0]) && !JsSpace(s[|s| - 1]);
    TrimUnchanged(s, JsSpace);
    SignedDigitsDecimal(n);
  }
}
